=== FILE: README.md ===
# Shopify API clients: request preparation and pagination

A Dafny model of the two API clients of the Shopify Node library:

- `RestClient` (`src/clients/rest/rest_client.ts`) resolves the access-token header and merges it with the caller's headers. It builds the versioned REST path and, when the request carried a query, rebuilds the `PageInfo` of the response from its `Link` header. That means splitting the header on `", "` and matching each entry against `<([^<]+)>; rel="([^"]+)"`. It then reads `fields` and `page_info` from each link's URL and turns `previous`/`next` links back into replayable `{path, query}` requests.
- `GraphqlClient` (`src/clients/graphql/graphql_client.ts`) does the following:
  - normalises the legacy string form of its constructor arguments;
  - checks for a token;
  - refuses an empty query;
  - resolves the Admin or Storefront header and credential;
  - merges headers, builds the GraphQL path and picks the body's data type.

The process-wide `Context` becomes an explicit `Config` record, and thrown errors become a `Result`. The transport is not modelled; a response enters only as the answer to its `link` header lookup. That answer is a three-way value, `Undefined | Null | Str(text)`, because the source gates pagination on `link !== undefined` and not on truthiness.

Modules, one per file, in dependency order:

| file | module | what it holds |
|---|---|---|
| optional.dfy | `Optional` | `Option`, JavaScript truthiness of an optional string |
| strings.dfy | `Strings` | `indexOf`, `split` with a string separator, `join`, and their round trips |
| decimal.dfy | `Decimal` | `toString` of an integral number and its inverse |
| errors.dfy | `ShopifyErrors` | the error kinds and `Result` |
| http_types.dfy | `HttpTypes` | API types, construction parameters, header merge, query values |
| context.dfy | `Context` | the configuration record and the constructors' token check |
| url.dfy | `Url` | the part of `new URL(...)` and `URLSearchParams.get` the client uses |
| link_header.dfy | `LinkHeader` | the `Link` entry pattern, with JavaScript's leftmost and greedy matching |
| rest_path.dfy | `RestPath` | `getRestPath`, `getBasePathForApiType`, `buildRequestParams` |
| pagination.dfy | `Pagination` | the loop that builds `PageInfo`, and an independent reference description of its result |
| rest_client.dfy | `RestClient` | the REST constructor, token header and `request` |
| graphql_client.dfy | `GraphqlClient` | the GraphQL constructor, token header and `query` |
| graphql_scenarios.dfy | `GraphqlScenarios` | the behaviour the GraphQL client's tests pin down |
| rest_scenarios.dfy | `RestScenarios` | one paginated REST listing followed end to end, outside private-app mode with a non-empty token, for every limit; the host, version and cursor are non-empty and free of `, < ? # & /`, the host also of `:` (so no port); the resource may hold `/` but none of `, < ? # &` and no line terminator |

On these points the model follows the code:

- **A missing `query.limit`.** The code calls `toString` on `query.limit` without checking that it exists. The model turns that case into `TypeError(UndefinedLimit)` and does not pick a default.
- **An absent `Link` header.** `Headers.get` answers `null` for an absent header, and `null !== undefined`. So an absent header still attaches a `PageInfo` holding only `limit`, just like an empty header does. Only the `Undefined` answer leaves the `PageInfo` off.
- **The `rel` value.** It is compared case-sensitively, and so is every part of the pattern.
- **The path pattern.** In `^/admin/api/[^/]+/(.*).json$` the dot before `json` is not escaped. The model keeps it as a wildcard for any character except a line terminator.

## Model

| member | source | states |
|---|---|---|
| Context.RequireAccessToken | src/clients/rest/rest_client.ts:28-30 | the constructor fails exactly when private-app mode is off and the token is absent or empty, and the failure is `MissingRequiredArgument` |
| HttpTypes.EffectiveApiType | src/clients/rest/rest_client.ts:25 | a missing (or empty) API type becomes Admin; any other given type is kept |
| HttpTypes.MergeHeaders | src/clients/rest/rest_client.ts:35-38 | the merged headers have the caller's keys plus the token header; every caller header keeps its value, so the caller wins a clash; otherwise the token header carries the token |
| HttpTypes.QueryValueToString | src/clients/rest/rest_client.ts:47 | a string limit is kept; a numeric limit becomes a canonical decimal numeral (no leading zero, no `-0`) that reads back as the same number |
| Decimal.IntToString | src/clients/rest/rest_client.ts:47 | `toString` of an integer below 10^21 in magnitude is a canonical numeral (no leading zero, no `-0`) that parses back to the integer, with a leading `-` exactly for negative numbers |
| Decimal.CanonicalUnique | src/clients/rest/rest_client.ts:47 | every canonical numeral is the `IntToString` of its value, so the text of a limit below 10^21 is determined by the number |
| Decimal.NatToStringRoundTrip | src/clients/rest/rest_client.ts:47 | the digits of a natural number read back as that number |
| RestClient.New | src/clients/rest/rest_client.ts:22-31 | construction fails with `MissingRequiredArgument` exactly when private-app mode is off and the token is absent or empty; otherwise the client keeps the token, and its API type is the given one, or Admin when none is given |
| RestClient.AdminToken | src/clients/rest/rest_client.ts:120 | an Admin client's credential is the app's secret key in private-app mode and the client's own token otherwise |
| RestClient.AccessTokenHeaderFor | src/clients/rest/rest_client.ts:114-136 | non-Admin clients fail with `ShopifyError`; an Admin client gets the access-token header carrying the secret key in private-app mode and its own token otherwise; it succeeds exactly when that value is non-empty |
| RestClient.Limit | src/clients/rest/rest_client.ts:47 | the limit is the stringified `query.limit`, and an absent limit is a `TypeError` |
| RestClient.Request | src/clients/rest/rest_client.ts:33-87 | unsupported types and undeterminable tokens fail as `ShopifyError`; the sent path is the versioned path; the sent headers are the merge, whose token header carries the secret key in private-app mode and the client's token otherwise; a request without a query, or whose lookup is `undefined`, succeeds without `PageInfo`; `PageInfo` is attached exactly when a query was given and the link lookup is not `undefined`; it carries the stringified limit and is the page information of the header, with only `limit` when the link is not a non-empty string; a missing limit is a `TypeError`; an unparsable link URL is `TypeError(InvalidUrl)` |
| RestPath.BasePath | src/clients/rest/rest_client.ts:105-112 | Admin gives `/admin/api`; every other type fails with `ShopifyError` |
| RestPath.GetRestPath | src/clients/rest/rest_client.ts:89-91 | for Admin the path is exactly `/admin/api/` + version + `/` + path + `.json`; other types fail with `ShopifyError` |
| RestPath.MatchVersioned | src/clients/rest/rest_client.ts:94-97 | a match of `^{base}/[^/]+/(.*).json$` decomposes the path into a slash-free version, a one-line resource and a wildcard character that recompose to the path |
| RestPath.MatchVersionedComplete | src/clients/rest/rest_client.ts:94-97 | every decomposition the pattern admits is found, so the match is exact |
| RestPath.StripRestPath | src/clients/rest/rest_client.ts:97 | a path the pattern matches becomes its captured resource; a path it does not match is left unchanged |
| RestPath.BuildRequestParams | src/clients/rest/rest_client.ts:93-103 | the replayable request's query is the decoded query of the page URL; its path is the captured resource when the path name matches the pattern, and the path name unchanged otherwise |
| RestPath.StripRestPathRoundTrip | src/clients/rest/rest_client.ts:89-103 | for a version without `/` and a resource on one line, stripping the REST path gives back the resource |
| RestPath.RestPathOfStripped | src/clients/rest/rest_client.ts:89-103 | a matched path with a literal `.json` ending is rebuilt exactly by `getRestPath` from its stripped resource |
| Strings.Split | src/clients/rest/rest_client.ts:51 | splitting gives at least one piece, and no piece contains the separator |
| Strings.JoinSplit | src/clients/rest/rest_client.ts:51 | joining the pieces of a split with the separator gives back the text |
| Strings.SplitJoin | src/clients/rest/rest_client.ts:98 | splitting the join of separator-free pieces on a one-character separator gives back the pieces |
| Strings.SplitWithoutSeparator | src/clients/rest/rest_client.ts:51 | a text that does not contain the separator splits into itself alone |
| Url.ParseUrl | src/clients/rest/rest_client.ts:60 | a parsed URL has a path name starting with `/`, free of `?` and `#`, and a search that is empty or `?` followed by a non-empty query |
| Url.ParseUrlRoundTrip | src/clients/rest/rest_client.ts:60 | a URL made of a scheme, a host and well-formed components parses back to exactly those components |
| Url.ParamOf | src/clients/rest/rest_client.ts:98 | a query piece splits at its first `=` into a name without `=` and the rest as value; without `=` the value is empty |
| Url.ParseSerializeQuery | src/clients/rest/rest_client.ts:98 | pairs whose names hold neither `&` nor `=`, and whose values hold no `&`, survive serialising and decoding unchanged, in order |
| Url.GetParam | src/clients/rest/rest_client.ts:61-62 | `searchParams.get` yields a value exactly when some pair has the name, and that value belongs to the first such pair |
| LinkHeader.RelEnd | src/clients/rest/rest_client.ts:17 | the `rel` group closes at a position exactly when that position is the first quote after the infix |
| LinkHeader.MatchAt | src/clients/rest/rest_client.ts:17 | at a start position the pattern matches exactly when a span is found, and the URL group found is the longest that still matches |
| LinkHeader.Match | src/clients/rest/rest_client.ts:54 | `match` finds a span that matches the pattern, starts leftmost among all matches and has the greedy URL group; it finds none exactly when no span matches |
| LinkHeader.UrlText | src/clients/rest/rest_client.ts:60 | the first capture is non-empty and holds no `<` |
| LinkHeader.RelText | src/clients/rest/rest_client.ts:59 | the second capture is non-empty and holds no quote |
| LinkHeader.MatchFormatLink | src/clients/rest/rest_client.ts:54-60 | an entry `<url>; rel="rel"` matches, and its captures are exactly the URL and the relation |
| Pagination.ParseEntry | src/clients/rest/rest_client.ts:54-62 | an entry's only failure is a URL the parser rejects, reported as `TypeError(InvalidUrl)` |
| Pagination.Step | src/clients/rest/rest_client.ts:64-79 | one entry keeps `limit`; it sets `fields` only if unset and supplied; it sets the previous or next URL and request only for a link of that relation with a non-empty `page_info`, and leaves them unchanged otherwise |
| Pagination.Accumulate | src/clients/rest/rest_client.ts:51-80 | the loop keeps `limit`, and its only failure is an unparsable URL |
| Pagination.PageInfoFor | src/clients/rest/rest_client.ts:46-81 | a header that is not a non-empty string gives a `PageInfo` with only `limit`; the limit is always kept |
| Pagination.ParseEntries | src/clients/rest/rest_client.ts:53-62 | parsing all entries succeeds exactly when each entry does, and yields at most one link per entry |
| Pagination.FirstFieldsIndex | src/clients/rest/rest_client.ts:64-66 | the index of the first link supplying a non-empty `fields`, with none before it |
| Pagination.LastCursorIndex | src/clients/rest/rest_client.ts:68-79 | the index of the last link of a relation carrying a non-empty `page_info`, with none after it |
| Pagination.AccumulateIsFold | src/clients/rest/rest_client.ts:51-80 | the loop over header entries equals parsing every entry first, skipping non-matches, and folding the step over the links; it fails exactly when parsing does |
| Pagination.StepAllFields | src/clients/rest/rest_client.ts:64-66 | after the loop, `fields` is the one already set or else the split `fields` of the first link supplying one |
| Pagination.StepAllCursor | src/clients/rest/rest_client.ts:68-79 | after the loop, each of the previous and next URL and request comes from the last cursor link of its relation, or is unchanged if there is none |
| Pagination.PageInfoMatchesReference | src/clients/rest/rest_client.ts:46-81 | the page information of a non-empty header is the reference description of its parsed links, or the parse error |
| Pagination.FieldsFirstWins | src/clients/rest/rest_client.ts:64-66 | once `fields` is set, no further entry changes it or the limit |
| GraphqlClient.NormalizeParams | src/clients/graphql/graphql_client.ts:25-31 | the legacy string form becomes `{domain, accessToken}` without an API type; a parameter object is used as given |
| GraphqlClient.New | src/clients/graphql/graphql_client.ts:24-42 | construction fails with `MissingRequiredArgument` exactly when private-app mode is off and the normalised token is absent or empty; the client keeps the domain and token, with the API type defaulting to Admin |
| GraphqlClient.BasePath | src/clients/graphql/graphql_client.ts:67-76 | Admin gives `/admin/api`, Storefront gives `/api`, and any other type fails with `ShopifyError` |
| GraphqlClient.TokenFor | src/clients/graphql/graphql_client.ts:78-92 | exactly Admin and Storefront have a header and credential: Admin uses the access-token header with the secret key in private-app mode, Storefront the storefront header with the private storefront token; outside private-app mode both use the client's own token |
| GraphqlClient.AccessTokenHeaderFor | src/clients/graphql/graphql_client.ts:78-104 | unsupported types fail with `ShopifyError`; otherwise it succeeds exactly when the mode's credential is non-empty, and yields that type's header with that credential |
| GraphqlClient.Query | src/clients/graphql/graphql_client.ts:44-65 | empty data fails with `MissingRequiredArgument` before anything else; unsupported types fail with `ShopifyError`; the path is the base, the version and `/graphql.json`; the data type is JSON exactly for object data; the data is passed through; headers merge with the caller winning; the Admin credential goes in the access-token header and the Storefront credential in the storefront header, and a Storefront request carries no access-token header unless the caller gave one; it succeeds exactly when the credential is non-empty, and an empty credential is a `ShopifyError` |
| GraphqlScenarios.AdminByDefault | src/clients/graphql/test/graphql_client.test.ts:27-43 | a client without an API type is Admin and posts the query to `/admin/api/unstable/graphql.json` with its token header |
| GraphqlScenarios.StorefrontPath | src/clients/graphql/test/graphql_client.test.ts:45-62 | a Storefront client posts to `/api/unstable/graphql.json` |
| GraphqlScenarios.InvalidApiTypeFails | src/clients/graphql/test/graphql_client.test.ts:64-72 | an unknown API type is accepted at construction, and `query` rejects it with `ShopifyError` |
| GraphqlScenarios.CustomHeadersMerged | src/clients/graphql/test/graphql_client.test.ts:74-97 | custom headers are sent together with the access-token header |
| GraphqlScenarios.PrivateAppUsesSecretKey | src/clients/graphql/test/graphql_client.test.ts:99-118 | in private-app mode a client without a token sends the secret key |
| GraphqlScenarios.PrivateStorefrontWithoutTokenFails | src/clients/graphql/test/graphql_client.test.ts:120-131 | a private Storefront client without a storefront token fails at `query` with `ShopifyError` |
| GraphqlScenarios.MissingTokenRefused | src/clients/graphql/test/graphql_client.test.ts:133-135 | outside private-app mode a client without a token is refused with `MissingRequiredArgument` |
| GraphqlScenarios.ObjectQueryIsJson | src/clients/graphql/test/graphql_client.test.ts:137-186 | object data is sent with the JSON data type |
| GraphqlScenarios.LegacyStringForm | src/clients/graphql/graphql_client.ts:24-31 | the string form builds the same client as the object form `{domain, accessToken}` |
| RestScenarios.NextLinkInfo | src/clients/rest/rest_client.ts:50-79 | a header holding one `next` link to a page URL gives `PageInfo` with the limit, the URL text unchanged, and a next-page request replaying the resource with its cursor |
| RestScenarios.NextLinkReplays | src/clients/rest/rest_client.ts:33-103 | a listing request whose response links to the next page succeeds; its `PageInfo` holds the limit, the URL unchanged and a request for the same resource with the cursor; rebuilding that request's path gives the path first sent |

## Left out

- The transport is not modelled: `super.request`, `client.post`, fetch, retries and the `async`/`Promise` plumbing. The response appears only as the answer of its `link` lookup, and `ret` itself is not modelled.
- Case-insensitive header lookup by `Headers.get` is library behaviour; the lookup's answer is a parameter.
- `new URL(...)` is modelled only for `scheme://host[/path][?query][#fragment]`. Relative URLs and URLs without a host are treated as parse failures. The model does not do these things the URL parser does:
  - percent-decoding;
  - percent-encoding of spaces, non-ASCII characters, `"`, `<` and `>` in the path and query;
  - removing tabs and newlines, and trimming surrounding spaces;
  - dot-segment removal, host validation, scheme and port syntax validation (a scheme such as `1x` or a port such as `abc` is accepted), and default-port handling;
  - giving non-special schemes an empty `pathname` (the model gives `/` for every scheme);
  - treating `\` like `/` in special-scheme URLs (the model reads `https://h\a\p.json` as host `h\a\p.json` with path `/`);
  - accepting a special-scheme URL without `//`, such as `https:h/p` (the model rejects it).
  Because raw newlines are kept, the path pattern's line-terminator rule matters in the model. With the real parser it would not.
- `querystring.decode` and `URLSearchParams` are modelled as an ordered list of name/value pairs split on `&` and the first `=`. Repeated names are not gathered into arrays, there is no `maxKeys` limit, and `+` and `%xx` are not decoded. `querystring.decode` returns an object whose integer-like keys come first, so the model's order of appearance is finer than the source's result.
- RestPath.BuildRequestParams: the replayable request's query is a list of text pairs, while `request` takes a map to query values; no conversion between them is modelled, so a next-page request is not fed back through `RestClient.Request`.
- HttpTypes.QueryValueToString: covers strings and integers only; JavaScript's formatting of fractional and exponent-form numbers is not modelled.
- Decimal.IntToString: writes plain digits for every integer, while JavaScript switches to exponent form (`1e+21`) at magnitudes of 10^21 and above, and integers beyond 2^53 are not exactly representable as JavaScript numbers; the contract matches `toString` only below 10^21.
- Decimal.CanonicalUnique: relates canonical numerals to `IntToString`, so for magnitudes of 10^21 and above it says nothing about JavaScript's own `toString`, which is not a plain numeral there.
- RestClient.Request: the `TypeError(UndefinedLimit)` and `TypeError(InvalidUrl)` errors arise in the source only after the transport has sent the request and received its response (src/clients/rest/rest_client.ts:42, 47, 60), so the server may already have acted; the model's error carries no `SentRequest` and does not distinguish them from the token and API-type errors raised before anything is sent.
- The Storefront header name is not visible in the source files; the model uses `X-Shopify-Storefront-Access-Token` for it. The contracts name it only through `StorefrontAccessTokenHeaderName`, and rely only on its being a different string from `X-Shopify-Access-Token`.
- GraphqlClient.Query: the source posts `{path, type, ...params}`, so a parameter object that carries `path` or `type` at run time overrides them; the model's parameters have neither field, so this precedence is not shown.
- Body serialisation and the `Content-Length`/`Content-Type` headers the transport adds are not modelled. A GraphQL object body is kept only through its `length` property, which is the only property the client reads.
- `Context` initialisation and mutation are not modelled; each call reads one immutable `Config`.
- Both clients assign into the caller's `params` object: `query` replaces `params.extraHeaders` with the merged headers (src/clients/graphql/graphql_client.ts:50), and `request` replaces `params.extraHeaders` and `params.path` (src/clients/rest/rest_client.ts:35-40). The model returns fresh records and leaves the caller's parameters unchanged. So it does not show that a parameter object reused for a second call already holds the first call's token header, which then counts as a caller header and wins the merge, nor that a reused REST parameter object has its already versioned path versioned a second time.
- `src/utils/types.ts` holds only interface declarations for sessions and is not part of this model.
- The message texts of the errors are not modelled, only their kinds.
- Pagination.ParseEntry: states only the error kind; what a parsed entry holds is stated by MatchFormatLink and the reference lemmas instead.
- Url.ParseUrl: states only the shape of the result; which texts parse and how is stated by ParseUrlRoundTrip for URLs built from components.

=== FILE: context.dfy ===
/** The process-wide settings both clients read, passed explicitly instead of
    being read from a mutable global. */
module Context {

  import opened Optional
  import opened ShopifyErrors

  datatype Config = Config(
    isPrivateApp: bool,
    apiSecretKey: Option<string>,
    privateAppStorefrontAccessToken: Option<string>,
    apiVersion: string)

  /** The check both constructors make: outside private-app mode a client
      needs a non-empty access token of its own. */
  function RequireAccessToken(cfg: Config, accessToken: Option<string>): (r: Result<()>)
    ensures r.Err? <==> !cfg.isPrivateApp && !Truthy(accessToken)
    ensures r.Err? ==> r.error == MissingRequiredArgument(AccessTokenArgument)
  {
    if !cfg.isPrivateApp && !Truthy(accessToken) then Err(MissingRequiredArgument(AccessTokenArgument))
    else Ok(())
  }
}

=== FILE: decimal.dfy ===
/** `Number.prototype.toString()` for integral numbers below 10^21 in
    magnitude, where JavaScript writes plain decimal digits: the digits of
    the value, with a leading `-` when it is negative, and its inverse. */
module Decimal {

  predicate IsDigit(c: char) {
    '0' <= c <= '9'
  }

  predicate AllDigits(s: string) {
    forall k :: 0 <= k < |s| ==> IsDigit(s[k])
  }

  function DigitChar(d: nat): (c: char)
    requires d < 10
    ensures IsDigit(c)
  {
    ('0' as int + d) as char
  }

  function DigitValue(c: char): (d: nat)
    requires IsDigit(c)
    ensures d < 10 && DigitChar(d) == c
  {
    c as int - '0' as int
  }

  /** The shortest decimal numeral of `n`. */
  function NatToString(n: nat): (s: string)
    ensures |s| >= 1 && AllDigits(s)
    ensures s[0] == '0' ==> n == 0
  {
    if n < 10 then [DigitChar(n)] else NatToString(n / 10) + [DigitChar(n % 10)]
  }

  /** The value of a string of decimal digits. */
  function DigitsValue(s: string): nat
    requires AllDigits(s)
  {
    if |s| == 0 then 0 else DigitsValue(s[..|s| - 1]) * 10 + DigitValue(s[|s| - 1])
  }

  /** An optional `-` followed by at least one digit. */
  predicate IsNumeral(s: string) {
    if |s| >= 1 && s[0] == '-' then |s| >= 2 && AllDigits(s[1..]) else |s| >= 1 && AllDigits(s)
  }

  function ParseInt(s: string): int
    requires IsNumeral(s)
  {
    if s[0] == '-' then -(DigitsValue(s[1..]) as int) else DigitsValue(s)
  }

  /** The spelling `toString` produces: no leading zero except in `0` itself,
      and no `-0`. */
  predicate IsCanonical(s: string)
    requires IsNumeral(s)
  {
    if s[0] == '-' then s[1] != '0' else s[0] == '0' ==> |s| == 1
  }

  /** `n.toString()` for an integral `n` with |n| < 10^21 (plain digits are
      produced for every `n`); reading it back gives `n`. */
  function IntToString(n: int): (s: string)
    ensures IsNumeral(s) && ParseInt(s) == n
    ensures s[0] == '-' <==> n < 0
    ensures IsCanonical(s)
  {
    if n < 0 then
      var digits := NatToString(-n);
      NatToStringRoundTrip(-n);
      assert ("-" + digits)[1..] == digits;
      "-" + digits
    else
      NatToStringRoundTrip(n);
      NatToString(n)
  }

  /** Reading the numeral back gives the number. */
  lemma {:induction false} NatToStringRoundTrip(n: nat)
    ensures DigitsValue(NatToString(n)) == n
  {
    if n >= 10 {
      var s := NatToString(n);
      assert s[..|s| - 1] == NatToString(n / 10);
      NatToStringRoundTrip(n / 10);
    }
  }

  /** A digit string without a leading zero is the numeral of its own value. */
  lemma {:induction false} CanonicalDigits(s: string)
    requires |s| >= 1 && AllDigits(s) && (s[0] == '0' ==> |s| == 1)
    ensures NatToString(DigitsValue(s)) == s
  {
    if |s| > 1 {
      var p := s[..|s| - 1];
      assert p[0] == s[0];
      CanonicalDigits(p);
      var v := DigitsValue(s);
      assert v / 10 == DigitsValue(p) && v % 10 == DigitValue(s[|s| - 1]);
      assert s == p + [s[|s| - 1]];
    }
  }

  /** Canonical numerals are exactly the texts `IntToString` produces, so two
      canonical numerals with the same value are the same text. */
  lemma CanonicalUnique(s: string)
    requires IsNumeral(s) && IsCanonical(s)
    ensures IntToString(ParseInt(s)) == s
  {
    if s[0] == '-' {
      CanonicalDigits(s[1..]);
      assert s == "-" + s[1..];
    } else {
      CanonicalDigits(s);
    }
  }
}

=== FILE: errors.dfy ===
/** The exceptions the two clients throw, as values. */
module ShopifyErrors {

  /** What a `MissingRequiredArgument` complains about. */
  datatype Missing = AccessTokenArgument | QueryArgument

  /** Why a plain `ShopifyError` was thrown. */
  datatype Cause = UnsupportedApiType | UndeterminedAccessToken

  /** A JavaScript `TypeError` raised by the runtime rather than by the library. */
  datatype Fault = InvalidUrl | UndefinedLimit

  datatype Error =
    | MissingRequiredArgument(missing: Missing)
    | ShopifyError(cause: Cause)
    | TypeError(fault: Fault)

  /** The outcome of a call that may throw; usable with `:-`. */
  datatype Result<+T> = Ok(value: T) | Err(error: Error) {

    predicate IsFailure() {
      Err?
    }

    function PropagateFailure<U>(): Result<U>
      requires Err?
    {
      Err(error)
    }

    function Extract(): T
      requires Ok?
    {
      value
    }
  }
}

=== FILE: graphql_client.dfy ===
/** The GraphQL client: construction (including the legacy string form of
    its parameters), the access-token header for the Admin and Storefront
    APIs, and the preparation of a `query` call. The POST itself is left to
    the transport. */
module GraphqlClient {

  import opened Optional
  import opened ShopifyErrors
  import opened HttpTypes
  import opened Context

  /** The first constructor argument: a parameter object or, in the legacy
      form, the shop domain alone. */
  datatype ClientArgs = Params(params: ApiClientParams) | Domain(domain: string)

  datatype Client = Client(apiType: ApiClientType, domain: string, accessToken: Option<string>)

  /** The legacy form becomes `{domain, accessToken}`; the second argument is
      ignored when a parameter object is given. */
  function NormalizeParams(args: ClientArgs, accessToken: Option<string>): (p: ApiClientParams)
    ensures args.Params? ==> p == args.params
    ensures args.Domain? ==> p.domain == args.domain && p.accessToken == accessToken && p.apiType.None?
  {
    match args
    case Params(params) => params
    case Domain(domain) => ApiClientParams(domain, accessToken, None)
  }

  /** `new GraphqlClient(params, accessToken)`. */
  function New(cfg: Config, args: ClientArgs, accessToken: Option<string>): (r: Result<Client>)
    ensures var p := NormalizeParams(args, accessToken);
      && (r.Err? <==> !cfg.isPrivateApp && !Truthy(p.accessToken))
      && (r.Ok? ==> r.value == Client(EffectiveApiType(p.apiType), p.domain, p.accessToken))
    ensures r.Err? ==> r.error == MissingRequiredArgument(AccessTokenArgument)
    ensures r.Ok? && (args.Domain? || args.params.apiType.None?) ==> r.value.apiType == Admin
  {
    var p := NormalizeParams(args, accessToken);
    var _ :- RequireAccessToken(cfg, p.accessToken);
    Ok(Client(EffectiveApiType(p.apiType), p.domain, p.accessToken))
  }

  const StorefrontBasePath: string := "/api"

  /** `getBasePathForApiType()`. */
  function BasePath(apiType: ApiClientType): (r: Result<string>)
    ensures r.Ok? <==> apiType == Admin || apiType == Storefront
    ensures apiType == Admin ==> r == Ok(AdminBasePath)
    ensures apiType == Storefront ==> r == Ok(StorefrontBasePath)
    ensures r.Err? ==> r.error == ShopifyError(UnsupportedApiType)
  {
    match apiType
    case Admin => Ok(AdminBasePath)
    case Storefront => Ok(StorefrontBasePath)
    case Other(_) => Err(ShopifyError(UnsupportedApiType))
  }

  /** The header and credential each supported API type uses: the matching
      app-wide secret in private-app mode, the client's own token otherwise. */
  function TokenFor(cfg: Config, client: Client): (r: Option<(string, Option<string>)>)
    ensures r.Some? <==> client.apiType == Admin || client.apiType == Storefront
    ensures client.apiType == Admin ==>
      r == Some((AccessTokenHeaderName, if cfg.isPrivateApp then cfg.apiSecretKey else client.accessToken))
    ensures client.apiType == Storefront ==>
      r == Some((StorefrontAccessTokenHeaderName, if cfg.isPrivateApp then cfg.privateAppStorefrontAccessToken else client.accessToken))
  {
    match client.apiType
    case Admin =>
      Some((AccessTokenHeaderName, if cfg.isPrivateApp then cfg.apiSecretKey else client.accessToken))
    case Storefront =>
      Some((StorefrontAccessTokenHeaderName, if cfg.isPrivateApp then cfg.privateAppStorefrontAccessToken else client.accessToken))
    case Other(_) => None
  }

  /** `getAccessTokenHeaderForApiType()`: never yields an empty credential. */
  function AccessTokenHeaderFor(cfg: Config, client: Client): (r: Result<AccessTokenHeader>)
    ensures client.apiType.Other? ==> r == Err(ShopifyError(UnsupportedApiType))
    ensures !client.apiType.Other? ==> (r.Ok? <==> Truthy(TokenFor(cfg, client).value.1))
    ensures !client.apiType.Other? && r.Err? ==> r.error == ShopifyError(UndeterminedAccessToken)
    ensures r.Ok? ==> (r.value.header, Some(r.value.value)) == TokenFor(cfg, client).value
    ensures r.Ok? ==> |r.value.value| >= 1
  {
    match TokenFor(cfg, client)
    case None => Err(ShopifyError(UnsupportedApiType))
    case Some((header, value)) =>
      if !Truthy(value) then Err(ShopifyError(UndeterminedAccessToken))
      else Ok(AccessTokenHeader(header, value.value))
  }

  /** The `data` of a query: GraphQL text, or an object to be sent as JSON.
      Only an object's `length` property matters to the client; it is absent
      on plain objects. */
  datatype QueryData = Text(query: string) | Object(length: Option<int>)

  /** `params.data.length === 0`. */
  predicate IsEmptyData(data: QueryData) {
    match data
    case Text(q) => |q| == 0
    case Object(length) => length == Some(0)
  }

  datatype GraphqlParams = GraphqlParams(data: QueryData, extraHeaders: Headers)

  /** What `query` hands to the transport's `post`. */
  datatype PostRequest = PostRequest(path: string, dataType: DataType, data: QueryData, extraHeaders: Headers)

  /** `query(params)`. */
  function Query(cfg: Config, client: Client, params: GraphqlParams): (r: Result<PostRequest>)
    ensures IsEmptyData(params.data) ==> r == Err(MissingRequiredArgument(QueryArgument))
    ensures !IsEmptyData(params.data) && client.apiType.Other? ==> r == Err(ShopifyError(UnsupportedApiType))
    ensures r.Ok? ==> client.apiType == Admin || client.apiType == Storefront
    ensures r.Ok? && client.apiType == Admin ==> r.value.path == "/admin/api/" + cfg.apiVersion + "/graphql.json"
    ensures r.Ok? && client.apiType == Storefront ==> r.value.path == "/api/" + cfg.apiVersion + "/graphql.json"
    ensures r.Ok? ==> (r.value.dataType == Json <==> params.data.Object?)
    ensures r.Ok? ==> r.value.data == params.data
    ensures r.Ok? ==> var (header, value) := TokenFor(cfg, client).value;
      && r.value.extraHeaders.Keys == params.extraHeaders.Keys + {header}
      && (forall k :: k in params.extraHeaders ==> r.value.extraHeaders[k] == params.extraHeaders[k])
      && (header !in params.extraHeaders ==> Some(r.value.extraHeaders[header]) == value)
    ensures !IsEmptyData(params.data) && !client.apiType.Other? ==>
      (r.Ok? <==> Truthy(TokenFor(cfg, client).value.1))
    ensures !IsEmptyData(params.data) && !client.apiType.Other? && !Truthy(TokenFor(cfg, client).value.1) ==>
      r == Err(ShopifyError(UndeterminedAccessToken))
    ensures r.Ok? && client.apiType == Admin ==>
      && AccessTokenHeaderName in r.value.extraHeaders
      && (AccessTokenHeaderName !in params.extraHeaders ==>
            Some(r.value.extraHeaders[AccessTokenHeaderName]) == (if cfg.isPrivateApp then cfg.apiSecretKey else client.accessToken))
    ensures r.Ok? && client.apiType == Storefront ==>
      && StorefrontAccessTokenHeaderName in r.value.extraHeaders
      && (StorefrontAccessTokenHeaderName !in params.extraHeaders ==>
            Some(r.value.extraHeaders[StorefrontAccessTokenHeaderName])
              == (if cfg.isPrivateApp then cfg.privateAppStorefrontAccessToken else client.accessToken))
      && (AccessTokenHeaderName in r.value.extraHeaders <==> AccessTokenHeaderName in params.extraHeaders)
  {
    if IsEmptyData(params.data) then Err(MissingRequiredArgument(QueryArgument))
    else
      var header :- AccessTokenHeaderFor(cfg, client);
      var headers := MergeHeaders(header, params.extraHeaders);
      match BasePath(client.apiType)
      case Err(e) => Err(e)
      case Ok(base) =>
        var path := base + "/" + cfg.apiVersion + "/graphql.json";
        var dataType := if params.data.Object? then Json else GraphQL;
        Ok(PostRequest(path, dataType, params.data, headers))
  }
}

=== FILE: graphql_scenarios.dfy ===
/** The behaviour the GraphQL client's tests pin down, as lemmas over the
    settings those tests run with (API version `unstable`, secret key
    `test_secret_key`). */
module GraphqlScenarios {

  import opened Optional
  import opened ShopifyErrors
  import opened HttpTypes
  import opened Context
  import opened GraphqlClient

  const Shop: string := "shop.myshopify.com"
  const ShopQuery: string := "{ shop { name } }"

  function TestConfig(isPrivateApp: bool, storefrontToken: Option<string>): Config {
    Config(isPrivateApp, Some("test_secret_key"), storefrontToken, "unstable")
  }

  /** A client built without an API type targets the Admin API, and its
      query goes to the Admin GraphQL path with the client's token. */
  lemma AdminByDefault()
    ensures var cfg := TestConfig(false, None);
      var c := New(cfg, Params(ApiClientParams(Shop, Some("bork"), None)), None);
      && c.Ok? && c.value.apiType == Admin
      && Query(cfg, c.value, GraphqlParams(Text(ShopQuery), map[])) ==
         Ok(PostRequest("/admin/api/unstable/graphql.json", GraphQL, Text(ShopQuery),
                        map[AccessTokenHeaderName := "bork"]))
  {
    var cfg := TestConfig(false, None);
    var c := New(cfg, Params(ApiClientParams(Shop, Some("bork"), None)), None);
    assert c == Ok(Client(Admin, Shop, Some("bork")));
    var headers := MergeHeaders(AccessTokenHeader(AccessTokenHeaderName, "bork"), map[]);
    assert headers == map[AccessTokenHeaderName := "bork"];
    assert AdminBasePath + "/" + "unstable" + "/graphql.json" == "/admin/api/unstable/graphql.json";
    var q := Query(cfg, c.value, GraphqlParams(Text(ShopQuery), map[]));
    assert q.Ok?;
    assert q.value.path == "/admin/api/unstable/graphql.json";
    assert q.value.extraHeaders == headers;
  }

  /** A Storefront client posts to the Storefront GraphQL path. */
  lemma StorefrontPath()
    ensures var cfg := TestConfig(false, None);
      var c := New(cfg, Params(ApiClientParams(Shop, Some("bork"), Some(Storefront))), None);
      && c.Ok? && c.value.apiType == Storefront
      && Query(cfg, c.value, GraphqlParams(Text(ShopQuery), map[])).Ok?
      && Query(cfg, c.value, GraphqlParams(Text(ShopQuery), map[])).value.path == "/api/unstable/graphql.json"
  {
  }

  /** An API type outside the enumeration is accepted at construction and
      refused by `query`. */
  lemma InvalidApiTypeFails()
    ensures var cfg := TestConfig(false, None);
      var c := New(cfg, Params(ApiClientParams(Shop, Some("dummy-token"), Some(Other("Invalid type!")))), None);
      && c.Ok?
      && Query(cfg, c.value, GraphqlParams(Text(ShopQuery), map[])) == Err(ShopifyError(UnsupportedApiType))
  {
  }

  /** Custom headers travel alongside the access-token header. */
  lemma CustomHeadersMerged()
    ensures var cfg := TestConfig(false, None);
      var c := New(cfg, Params(ApiClientParams(Shop, Some("bork"), None)), None);
      && c.Ok?
      && Query(cfg, c.value, GraphqlParams(Text(ShopQuery), map["X-Glib-Glob" := "goobers"])).Ok?
      && Query(cfg, c.value, GraphqlParams(Text(ShopQuery), map["X-Glib-Glob" := "goobers"])).value.extraHeaders
         == map["X-Glib-Glob" := "goobers", AccessTokenHeaderName := "bork"]
  {
  }

  /** In private-app mode a client needs no token and sends the secret key. */
  lemma PrivateAppUsesSecretKey()
    ensures var cfg := TestConfig(true, None);
      var c := New(cfg, Params(ApiClientParams(Shop, None, None)), None);
      && c.Ok?
      && Query(cfg, c.value, GraphqlParams(Text(ShopQuery), map[])).Ok?
      && Query(cfg, c.value, GraphqlParams(Text(ShopQuery), map[])).value.extraHeaders
         == map[AccessTokenHeaderName := "test_secret_key"]
  {
  }

  /** A private Storefront client without a storefront token fails at `query`. */
  lemma PrivateStorefrontWithoutTokenFails()
    ensures var cfg := TestConfig(true, None);
      var c := New(cfg, Params(ApiClientParams(Shop, None, Some(Storefront))), None);
      && c.Ok?
      && Query(cfg, c.value, GraphqlParams(Text(ShopQuery), map[])) == Err(ShopifyError(UndeterminedAccessToken))
  {
  }

  /** Outside private-app mode a client cannot be built without a token. */
  lemma MissingTokenRefused()
    ensures New(TestConfig(false, None), Params(ApiClientParams(Shop, None, None)), None)
      == Err(MissingRequiredArgument(AccessTokenArgument))
  {
  }

  /** An object query is sent as JSON. */
  lemma ObjectQueryIsJson()
    ensures var cfg := TestConfig(false, None);
      var c := New(cfg, Params(ApiClientParams(Shop, Some("bork"), None)), None);
      && c.Ok?
      && Query(cfg, c.value, GraphqlParams(Object(None), map[])).Ok?
      && Query(cfg, c.value, GraphqlParams(Object(None), map[])).value.dataType == Json
  {
  }

  /** The legacy string form builds the same client as `{domain, accessToken}`. */
  lemma LegacyStringForm(cfg: Config, domain: string, token: Option<string>)
    ensures New(cfg, Domain(domain), token) == New(cfg, Params(ApiClientParams(domain, token, None)), None)
  {
  }
}

=== FILE: http_types.dfy ===
/** Types shared by the REST and GraphQL clients: API surfaces, construction
    parameters, request headers and query values. */
module HttpTypes {

  import opened Optional
  import Decimal

  /** The API surface a client targets. `Other` carries any value outside the
      enumeration (the source accepts one through a type cast). */
  datatype ApiClientType = Admin | Storefront | Other(name: string)

  datatype ApiClientParams = ApiClientParams(
    domain: string,
    accessToken: Option<string>,
    apiType: Option<ApiClientType>)

  /** `params.apiType || ApiClientType.Admin`: a missing or empty type means Admin. */
  function EffectiveApiType(apiType: Option<ApiClientType>): (t: ApiClientType)
    ensures apiType.None? ==> t == Admin
    ensures apiType == Some(Other("")) ==> t == Admin
    ensures apiType.Some? && apiType.value != Other("") ==> t == apiType.value
    ensures t != Other("")
  {
    match apiType
    case None => Admin
    case Some(Other("")) => Admin
    case Some(t) => t
  }

  /** The header names of the platform's two credentials. */
  const AccessTokenHeaderName: string := "X-Shopify-Access-Token"
  const StorefrontAccessTokenHeaderName: string := "X-Shopify-Storefront-Access-Token"

  /** The base path of the Admin API, shared by both clients. */
  const AdminBasePath: string := "/admin/api"

  datatype AccessTokenHeader = AccessTokenHeader(header: string, value: string)

  type Headers = map<string, string>

  /** `{[h.header]: h.value, ...extra}`: the caller's headers win on a clash. */
  function MergeHeaders(h: AccessTokenHeader, extra: Headers): (r: Headers)
    ensures r.Keys == extra.Keys + {h.header}
    ensures forall k :: k in extra ==> r[k] == extra[k]
    ensures h.header !in extra ==> r[h.header] == h.value
  {
    map[h.header := h.value] + extra
  }

  /** The value of one query parameter, as JavaScript would hold it. */
  datatype QueryValue = StringValue(text: string) | NumberValue(number: int)

  /** `value.toString()`. */
  function QueryValueToString(v: QueryValue): (s: string)
    ensures v.StringValue? ==> s == v.text
    ensures v.NumberValue? ==> Decimal.IsNumeral(s) && Decimal.ParseInt(s) == v.number
    ensures v.NumberValue? ==> Decimal.IsCanonical(s)
  {
    match v
    case StringValue(t) => t
    case NumberValue(n) => Decimal.IntToString(n)
  }

  /** The body formats the GraphQL client chooses between. */
  datatype DataType = Json | GraphQL
}

=== FILE: link_header.dfy ===
/** Matching one entry of a `Link` response header against the pattern
    `<([^<]+)>; rel="([^"]+)"`, with the semantics of JavaScript's
    `String.prototype.match` for a pattern without flags: the match starting
    leftmost wins, and for that start the greedy URL group takes the longest
    extent that still lets the rest of the pattern match. The pattern is
    unanchored, so text before and after the match is ignored. */
module LinkHeader {

  import opened Optional
  import opened Strings

  /** The literal text between the URL group and the `rel` group. */
  const RelInfix: string := ">; rel=\""

  /** Where a match sits: `<` at `start`, the URL group is `s[start + 1..urlEnd]`,
      the infix follows it, and the `rel` group ends at the closing quote `relEnd`. */
  datatype Span = Span(start: nat, urlEnd: nat, relEnd: nat)

  /** `<([^<]+)` matches `s[p..e1]`. */
  predicate UrlGroupAt(s: string, p: int, e1: int) {
    && 0 <= p && p + 2 <= e1 <= |s|
    && s[p] == '<'
    && forall k :: p + 1 <= k < e1 ==> s[k] != '<'
  }

  /** `>; rel="([^"]+)"` matches `s[e1..e2 + 1]`. */
  predicate RelGroupAt(s: string, e1: int, e2: int) {
    && 0 <= e1 && e1 + |RelInfix| < e2 < |s|
    && s[e1..e1 + |RelInfix|] == RelInfix
    && (forall k :: e1 + |RelInfix| <= k < e2 ==> s[k] != '"')
    && s[e2] == '"'
  }

  /** The whole pattern matches `s[p..e2 + 1]` with the URL group ending at `e1`. */
  predicate MatchesAt(s: string, p: int, e1: int, e2: int) {
    UrlGroupAt(s, p, e1) && RelGroupAt(s, e1, e2)
  }

  /** Once the URL group ends at `e1`, the `rel` group can only close at the
      first quote after the infix. */
  function RelEnd(s: string, e1: nat): (r: Option<nat>)
    ensures forall e2 :: RelGroupAt(s, e1, e2) <==> r == Some(e2)
  {
    var n := |RelInfix|;
    if e1 + n <= |s| && s[e1..e1 + n] == RelInfix then
      var q := FirstIn(s, {'"'}, e1 + n);
      if e1 + n < q < |s| then Some(q) else None
    else None
  }

  /** The largest `e1` in `[p + 2, e]` after which the rest of the pattern matches:
      the backtracking order of the greedy URL group. */
  function LastUrlEnd(s: string, p: nat, e: nat): (r: Option<nat>)
    ensures r.Some? ==> p + 2 <= r.value <= e && RelEnd(s, r.value).Some?
    ensures forall e1 :: (if r.Some? then r.value < e1 else p + 2 <= e1) && e1 <= e ==> RelEnd(s, e1).None?
    decreases e
  {
    if e < p + 2 then None
    else if RelEnd(s, e).Some? then Some(e)
    else LastUrlEnd(s, p, e - 1)
  }

  /** The match starting at `p`, if any, with the greedy URL group. */
  function MatchAt(s: string, p: nat): (r: Option<Span>)
    requires p < |s|
    ensures r.Some? ==> r.value.start == p && MatchesAt(s, p, r.value.urlEnd, r.value.relEnd)
    ensures r.Some? ==> forall e1, e2 :: MatchesAt(s, p, e1, e2) ==> e1 <= r.value.urlEnd
    ensures r.None? ==> forall e1, e2 :: !MatchesAt(s, p, e1, e2)
  {
    if s[p] != '<' then None
    else
      var hi := FirstIn(s, {'<'}, p + 1);
      assert forall e1 :: UrlGroupAt(s, p, e1) <==> p + 2 <= e1 <= hi;
      assert forall e1, e2 :: MatchesAt(s, p, e1, e2) ==> p + 2 <= e1 <= hi && RelEnd(s, e1) == Some(e2);
      match LastUrlEnd(s, p, hi)
      case None => None
      case Some(e1) => Some(Span(p, e1, RelEnd(s, e1).value))
  }

  /** The leftmost match starting at or after `from`. */
  function MatchFrom(s: string, from: nat): (r: Option<Span>)
    ensures r.Some? ==> from <= r.value.start && MatchesAt(s, r.value.start, r.value.urlEnd, r.value.relEnd)
    ensures r.Some? ==> forall p, e1, e2 :: from <= p < r.value.start ==> !MatchesAt(s, p, e1, e2)
    ensures r.Some? ==> forall e1, e2 :: MatchesAt(s, r.value.start, e1, e2) ==> e1 <= r.value.urlEnd
    ensures r.None? ==> forall p, e1, e2 :: from <= p ==> !MatchesAt(s, p, e1, e2)
    decreases |s| - from
  {
    if from >= |s| then None
    else match MatchAt(s, from)
      case Some(m) => Some(m)
      case None => MatchFrom(s, from + 1)
  }

  /** `s.match(LINK_HEADER_REGEXP)`: the leftmost match, with the longest URL
      group among the matches at that start. */
  function Match(s: string): (r: Option<Span>)
    ensures r.Some? ==> MatchesAt(s, r.value.start, r.value.urlEnd, r.value.relEnd)
    ensures r.Some? ==> forall p, e1, e2 :: MatchesAt(s, p, e1, e2) ==> r.value.start <= p
    ensures r.Some? ==> forall e1, e2 :: MatchesAt(s, r.value.start, e1, e2) ==> e1 <= r.value.urlEnd
    ensures r.None? <==> forall p, e1, e2 :: !MatchesAt(s, p, e1, e2)
  {
    MatchFrom(s, 0)
  }

  /** The first capture group: the link's URL. */
  function UrlText(s: string, m: Span): (url: string)
    requires MatchesAt(s, m.start, m.urlEnd, m.relEnd)
    ensures |url| >= 1 && '<' !in url
  {
    s[m.start + 1..m.urlEnd]
  }

  /** The second capture group: the link's relation type. */
  function RelText(s: string, m: Span): (rel: string)
    requires MatchesAt(s, m.start, m.urlEnd, m.relEnd)
    ensures |rel| >= 1 && '"' !in rel
  {
    s[m.urlEnd + |RelInfix|..m.relEnd]
  }

  /** The wire form of one entry: `<url>; rel="rel"`. */
  function FormatLink(url: string, rel: string): string {
    "<" + url + RelInfix + rel + "\""
  }

  /** The pieces of a formatted entry, by position. */
  lemma FormatLinkParts(url: string, rel: string)
    ensures var s := FormatLink(url, rel);
      var e1 := |url| + 1;
      var n := |RelInfix|;
      && |s| == e1 + n + |rel| + 1
      && s[0] == '<' && s[1..e1] == url
      && s[e1..e1 + n] == RelInfix
      && s[e1 + n..|s| - 1] == rel && s[|s| - 1] == '"'
  {
    var a := "<" + url;
    var b := a + RelInfix;
    var c := b + rel;
    var s := c + "\"";
    assert s == FormatLink(url, rel);
    assert s[..|c|] == c && c[..|b|] == b && b[..|a|] == a;
    assert s[1..|a|] == a[1..];
    assert s[|a|..|b|] == b[|a|..];
    assert s[|b|..|c|] == c[|b|..];
  }

  /** A formatted entry matches at its start, with the URL group ending where
      the URL ends. */
  lemma FormatLinkMatches(url: string, rel: string)
    requires |url| >= 1 && '<' !in url
    requires |rel| >= 1 && '"' !in rel
    ensures MatchesAt(FormatLink(url, rel), 0, |url| + 1, |FormatLink(url, rel)| - 1)
  {
    var s := FormatLink(url, rel);
    var n := |RelInfix|;
    var e1 := |url| + 1;
    var e2 := |s| - 1;
    FormatLinkParts(url, rel);
    forall k | 1 <= k < e1
      ensures s[k] != '<'
    {
      assert s[k] == s[1..e1][k - 1];
    }
    forall k | e1 + n <= k < e2
      ensures s[k] != '"'
    {
      assert s[k] == s[e1 + n..e2][k - e1 - n];
    }
  }

  /** In a formatted entry no later end of the URL group is followed by the infix:
      the `rel` text holds no quote. */
  lemma FormatLinkNoLongerUrl(url: string, rel: string)
    requires '"' !in rel
    ensures forall e, f | |url| + 1 < e :: !RelGroupAt(FormatLink(url, rel), e, f)
  {
    var s := FormatLink(url, rel);
    var n := |RelInfix|;
    var e1 := |url| + 1;
    FormatLinkParts(url, rel);
    forall e, f | e1 < e
      ensures !RelGroupAt(s, e, f)
    {
      if e + n < |s| {
        assert e + n - 1 >= e1 + n;
        assert s[e + n - 1] == s[e..e + n][n - 1];
        assert s[e + n - 1] == s[e1 + n..|s| - 1][e + n - 1 - e1 - n];
      }
    }
  }

  /** A formatted entry matches, and the two groups capture exactly the URL and
      the relation it was made from. */
  lemma MatchFormatLink(url: string, rel: string)
    requires |url| >= 1 && '<' !in url
    requires |rel| >= 1 && '"' !in rel
    ensures Match(FormatLink(url, rel)).Some?
    ensures UrlText(FormatLink(url, rel), Match(FormatLink(url, rel)).value) == url
    ensures RelText(FormatLink(url, rel), Match(FormatLink(url, rel)).value) == rel
  {
    var s := FormatLink(url, rel);
    var e1 := |url| + 1;
    var e2 := |s| - 1;
    FormatLinkParts(url, rel);
    FormatLinkMatches(url, rel);
    FormatLinkNoLongerUrl(url, rel);
    var m := Match(s).value;
    assert m.start == 0;
    assert m.urlEnd == e1;
    assert RelEnd(s, e1) == Some(e2) == Some(m.relEnd);
  }
}

=== FILE: optional.dfy ===
/** An optional value. `None` stands for JavaScript's `undefined` (and `null`)
    wherever the source reads a property that may be missing. */
module Optional {

  datatype Option<+T> = None | Some(value: T)

  /** JavaScript truthiness of a `string | undefined`: present and non-empty. */
  predicate Truthy(s: Option<string>) {
    s.Some? && |s.value| > 0
  }
}

=== FILE: pagination.dfy ===
/** Rebuilding pagination information from a response's `Link` header
    (lines 44-84 of the REST client's `request`). */
module Pagination {

  import opened Optional
  import opened Strings
  import opened ShopifyErrors
  import opened Url
  import opened LinkHeader
  import opened RestPath

  datatype PageInfo = PageInfo(
    limit: string,
    fields: Option<seq<string>>,
    previousPageUrl: Option<string>,
    prevPage: Option<PageRequest>,
    nextPageUrl: Option<string>,
    nextPage: Option<PageRequest>)

  /** What `ret.headers.get('link')` produced: the source distinguishes
      `undefined` from `null` and from a string. */
  datatype LinkLookup = Undefined | Null | Str(text: string)

  /** A `Link` entry that matched the pattern: the captured URL text and
      relation, the parsed URL, and its `fields` and `page_info` parameters. */
  datatype ParsedLink = ParsedLink(
    text: string,
    rel: string,
    url: Url,
    fields: Option<string>,
    pageToken: Option<string>)

  const LinkSeparator: string := ", "

  /** The page information before any link is read. */
  function Initial(limit: string): PageInfo {
    PageInfo(limit, None, None, None, None, None)
  }

  /** Matching one entry and parsing its URL; `new URL` throws on a URL it cannot parse. */
  function ParseEntry(entry: string): (r: Result<Option<ParsedLink>>)
    ensures r.Err? ==> r.error == TypeError(InvalidUrl)
  {
    match Match(entry)
    case None => Ok(None)
    case Some(m) =>
      var text := UrlText(entry, m);
      match ParseUrl(text)
      case None => Err(TypeError(InvalidUrl))
      case Some(u) => Ok(Some(ParsedLink(text, RelText(entry, m), u, GetParam(u, "fields"), GetParam(u, "page_info"))))
  }

  /** The link's URL carries a non-empty `fields` parameter. */
  predicate SuppliesFields(l: ParsedLink) {
    Truthy(l.fields)
  }

  function FieldsOf(l: ParsedLink): seq<string>
    requires SuppliesFields(l)
  {
    Split(l.fields.value, ",")
  }

  /** The link has relation `rel` and a non-empty `page_info` cursor. */
  predicate IsCursor(l: ParsedLink, rel: string) {
    Truthy(l.pageToken) && l.rel == rel
  }

  /** One iteration of the loop over the entries of the header. */
  function Step(info: PageInfo, l: ParsedLink, base: string): (r: PageInfo)
    ensures r.limit == info.limit
    ensures r.fields == if info.fields.None? && SuppliesFields(l) then Some(FieldsOf(l)) else info.fields
    ensures IsCursor(l, "previous") ==> r.previousPageUrl == Some(l.text) && r.prevPage == Some(BuildRequestParams(base, l.url))
    ensures !IsCursor(l, "previous") ==> r.previousPageUrl == info.previousPageUrl && r.prevPage == info.prevPage
    ensures IsCursor(l, "next") ==> r.nextPageUrl == Some(l.text) && r.nextPage == Some(BuildRequestParams(base, l.url))
    ensures !IsCursor(l, "next") ==> r.nextPageUrl == info.nextPageUrl && r.nextPage == info.nextPage
  {
    var withFields := if info.fields.None? && Truthy(l.fields) then info.(fields := Some(Split(l.fields.value, ","))) else info;
    if !Truthy(l.pageToken) then withFields
    else if l.rel == "previous" then
      withFields.(previousPageUrl := Some(l.text), prevPage := Some(BuildRequestParams(base, l.url)))
    else if l.rel == "next" then
      withFields.(nextPageUrl := Some(l.text), nextPage := Some(BuildRequestParams(base, l.url)))
    else withFields
  }

  /** The loop over the entries, as the source runs it: an entry that does not
      match is skipped, and an unparsable URL aborts the whole request. */
  function Accumulate(info: PageInfo, entries: seq<string>, base: string): (r: Result<PageInfo>)
    ensures r.Ok? ==> r.value.limit == info.limit
    ensures r.Err? ==> r.error == TypeError(InvalidUrl)
    decreases |entries|
  {
    if |entries| == 0 then Ok(info)
    else
      var parsed :- ParseEntry(entries[0]);
      match parsed
      case None => Accumulate(info, entries[1..], base)
      case Some(l) => Accumulate(Step(info, l, base), entries[1..], base)
  }

  /** The page information for a header value that is not `undefined`.
      A `null` or empty header leaves only `limit`. */
  function PageInfoFor(limit: string, link: LinkLookup, base: string): (r: Result<PageInfo>)
    ensures !(link.Str? && |link.text| > 0) ==> r == Ok(Initial(limit))
    ensures r.Ok? ==> r.value.limit == limit
  {
    if link.Str? && |link.text| > 0 then Accumulate(Initial(limit), Split(link.text, LinkSeparator), base)
    else Ok(Initial(limit))
  }

  // ---------------------------------------------------------------------------
  // A reference description of the result, independent of the loop: the links
  // are parsed first, `fields` comes from the first link that supplies it, and
  // each cursor comes from the last link of its relation.

  /** All matched links in order, or the error of the first unparsable URL. */
  function ParseEntries(entries: seq<string>): (r: Result<seq<ParsedLink>>)
    ensures r.Ok? <==> forall k :: 0 <= k < |entries| ==> ParseEntry(entries[k]).Ok?
    ensures r.Err? ==> r.error == TypeError(InvalidUrl)
    ensures r.Ok? ==> |r.value| <= |entries|
    decreases |entries|
  {
    if |entries| == 0 then Ok([])
    else
      var parsed :- ParseEntry(entries[0]);
      var rest :- ParseEntries(entries[1..]);
      var links := (if parsed.Some? then [parsed.value] else []) + rest;
      assert forall k :: 0 <= k < |entries| - 1 ==> entries[1..][k] == entries[k + 1];
      Ok(links)
  }

  /** The index of the first link that supplies `fields`. */
  function FirstFieldsIndex(links: seq<ParsedLink>): (r: Option<nat>)
    ensures r.Some? ==> r.value < |links| && SuppliesFields(links[r.value])
    ensures r.Some? ==> forall j :: 0 <= j < r.value ==> !SuppliesFields(links[j])
    ensures r.None? ==> forall j :: 0 <= j < |links| ==> !SuppliesFields(links[j])
  {
    if |links| == 0 then None
    else if SuppliesFields(links[0]) then Some(0)
    else match FirstFieldsIndex(links[1..])
      case None => None
      case Some(i) => Some(i + 1)
  }

  /** The index of the last cursor link of relation `rel`. */
  function LastCursorIndex(links: seq<ParsedLink>, rel: string): (r: Option<nat>)
    ensures r.Some? ==> r.value < |links| && IsCursor(links[r.value], rel)
    ensures r.Some? ==> forall j :: r.value < j < |links| ==> !IsCursor(links[j], rel)
    ensures r.None? ==> forall j :: 0 <= j < |links| ==> !IsCursor(links[j], rel)
  {
    if |links| == 0 then None
    else match LastCursorIndex(links[1..], rel)
      case Some(i) => Some(i + 1)
      case None => if IsCursor(links[0], rel) then Some(0) else None
  }

  function FirstFields(links: seq<ParsedLink>): Option<seq<string>> {
    match FirstFieldsIndex(links)
    case None => None
    case Some(i) => Some(FieldsOf(links[i]))
  }

  function LastCursorUrl(links: seq<ParsedLink>, rel: string): Option<string> {
    match LastCursorIndex(links, rel)
    case None => None
    case Some(i) => Some(links[i].text)
  }

  function LastCursorPage(links: seq<ParsedLink>, rel: string, base: string): Option<PageRequest> {
    match LastCursorIndex(links, rel)
    case None => None
    case Some(i) => Some(BuildRequestParams(base, links[i].url))
  }

  /** The page information the reference description assigns to `links`. */
  function Expected(limit: string, links: seq<ParsedLink>, base: string): PageInfo {
    PageInfo(
      limit,
      FirstFields(links),
      LastCursorUrl(links, "previous"),
      LastCursorPage(links, "previous", base),
      LastCursorUrl(links, "next"),
      LastCursorPage(links, "next", base))
  }

  // ---------------------------------------------------------------------------
  // The loop agrees with the reference description.

  /** Running the steps over the already parsed links. */
  function StepAll(info: PageInfo, links: seq<ParsedLink>, base: string): PageInfo
    decreases |links|
  {
    if |links| == 0 then info else StepAll(Step(info, links[0], base), links[1..], base)
  }

  /** The loop is the fold of `Step` over the parsed links, and fails exactly
      when parsing them fails. */
  lemma {:induction false} AccumulateIsFold(info: PageInfo, entries: seq<string>, base: string)
    ensures Accumulate(info, entries, base) ==
      match ParseEntries(entries)
      case Ok(links) => Ok(StepAll(info, links, base))
      case Err(e) => Err(e)
    decreases |entries|
  {
    if |entries| > 0 {
      var tail := entries[1..];
      var parsed := ParseEntry(entries[0]);
      if parsed.Ok? {
        var next := if parsed.value.Some? then Step(info, parsed.value.value, base) else info;
        AccumulateIsFold(next, tail, base);
        UnfoldOk(info, entries, base);
        if ParseEntries(tail).Ok? {
          var ls := ParseEntries(tail).value;
          if parsed.value.Some? {
            StepAllCons(info, parsed.value.value, ls, base);
          } else {
            assert [] + ls == ls;
          }
        }
      } else {
        UnfoldErr(info, entries, base);
      }
    }
  }

  lemma StepAllCons(info: PageInfo, l: ParsedLink, ls: seq<ParsedLink>, base: string)
    ensures StepAll(info, [l] + ls, base) == StepAll(Step(info, l, base), ls, base)
  {
    assert ([l] + ls)[1..] == ls;
  }

  lemma UnfoldErr(info: PageInfo, entries: seq<string>, base: string)
    requires |entries| > 0 && ParseEntry(entries[0]).Err?
    ensures Accumulate(info, entries, base) == Err(TypeError(InvalidUrl))
    ensures ParseEntries(entries) == Err(TypeError(InvalidUrl))
  {
  }

  /** One unfolding of both definitions when the first entry parses. */
  lemma UnfoldOk(info: PageInfo, entries: seq<string>, base: string)
    requires |entries| > 0 && ParseEntry(entries[0]).Ok?
    ensures var parsed := ParseEntry(entries[0]).value;
      var next := if parsed.Some? then Step(info, parsed.value, base) else info;
      && Accumulate(info, entries, base) == Accumulate(next, entries[1..], base)
      && ParseEntries(entries) ==
        match ParseEntries(entries[1..])
        case Ok(ls) => Ok((if parsed.Some? then [parsed.value] else []) + ls)
        case Err(e) => Err(e)
  {
  }

  /** Once `fields` is set no later link changes it; until then the first link
      that supplies it decides it. */
  lemma {:induction false} StepAllFields(info: PageInfo, links: seq<ParsedLink>, base: string)
    ensures StepAll(info, links, base).limit == info.limit
    ensures StepAll(info, links, base).fields == if info.fields.Some? then info.fields else FirstFields(links)
    decreases |links|
  {
    if |links| > 0 {
      StepAllFields(Step(info, links[0], base), links[1..], base);
      if info.fields.None? && !SuppliesFields(links[0]) {
        match FirstFieldsIndex(links[1..])
        case None =>
        case Some(i) => assert links[1..][i] == links[i + 1];
      }
    }
  }

  /** Each cursor ends up from the last link of its relation that carries a
      `page_info`; links of any other relation never set it. */
  lemma {:induction false} StepAllCursor(info: PageInfo, links: seq<ParsedLink>, base: string)
    ensures StepAll(info, links, base).nextPageUrl == if LastCursorIndex(links, "next").Some? then LastCursorUrl(links, "next") else info.nextPageUrl
    ensures StepAll(info, links, base).nextPage == if LastCursorIndex(links, "next").Some? then LastCursorPage(links, "next", base) else info.nextPage
    ensures StepAll(info, links, base).previousPageUrl == if LastCursorIndex(links, "previous").Some? then LastCursorUrl(links, "previous") else info.previousPageUrl
    ensures StepAll(info, links, base).prevPage == if LastCursorIndex(links, "previous").Some? then LastCursorPage(links, "previous", base) else info.prevPage
    decreases |links|
  {
    if |links| > 0 {
      StepAllCursor(Step(info, links[0], base), links[1..], base);
      match LastCursorIndex(links[1..], "next")
      case None =>
      case Some(i) => assert links[1..][i] == links[i + 1];
      match LastCursorIndex(links[1..], "previous")
      case None =>
      case Some(i) => assert links[1..][i] == links[i + 1];
    }
  }

  /** The page information for a non-empty header is the reference description
      of its parsed entries, and it fails exactly when some matched URL does
      not parse. */
  lemma PageInfoMatchesReference(limit: string, header: string, base: string)
    requires |header| > 0
    ensures var entries := Split(header, LinkSeparator);
      PageInfoFor(limit, Str(header), base) ==
        match ParseEntries(entries)
        case Ok(links) => Ok(Expected(limit, links, base))
        case Err(e) => Err(e)
  {
    var entries := Split(header, LinkSeparator);
    AccumulateIsFold(Initial(limit), entries, base);
    match ParseEntries(entries)
    case Err(_) =>
    case Ok(links) =>
      StepAllFields(Initial(limit), links, base);
      StepAllCursor(Initial(limit), links, base);
  }

  /** `fields` is never overwritten: once set, no entry of the header changes it. */
  lemma {:induction false} FieldsFirstWins(info: PageInfo, entries: seq<string>, base: string)
    requires info.fields.Some?
    ensures Accumulate(info, entries, base).Ok? ==> Accumulate(info, entries, base).value.fields == info.fields
    ensures Accumulate(info, entries, base).Ok? ==> Accumulate(info, entries, base).value.limit == info.limit
    decreases |entries|
  {
    if |entries| > 0 {
      match ParseEntry(entries[0])
      case Err(_) =>
      case Ok(None) => FieldsFirstWins(info, entries[1..], base);
      case Ok(Some(l)) => FieldsFirstWins(Step(info, l, base), entries[1..], base);
    }
  }
}

=== FILE: rest_client.dfy ===
/** The REST client: construction, the access-token header, and the
    preparation of a request together with the pagination information
    rebuilt from the response's `Link` header. The transport itself is not
    modelled: the response enters only as the result of its `link` lookup. */
module RestClient {

  import opened Optional
  import opened ShopifyErrors
  import opened HttpTypes
  import opened Context
  import opened RestPath
  import opened Pagination

  datatype Client = Client(apiType: ApiClientType, accessToken: Option<string>)

  /** `new RestClient(params)`. */
  function New(cfg: Config, params: ApiClientParams): (r: Result<Client>)
    ensures r.Err? <==> !cfg.isPrivateApp && !Truthy(params.accessToken)
    ensures r.Err? ==> r.error == MissingRequiredArgument(AccessTokenArgument)
    ensures r.Ok? ==> r.value.accessToken == params.accessToken
    ensures r.Ok? ==> r.value.apiType == EffectiveApiType(params.apiType)
    ensures r.Ok? && params.apiType.None? ==> r.value.apiType == Admin
  {
    var _ :- RequireAccessToken(cfg, params.accessToken);
    Ok(Client(EffectiveApiType(params.apiType), params.accessToken))
  }

  /** The credential an Admin client sends: the app's secret key in
      private-app mode, its own access token otherwise. */
  function AdminToken(cfg: Config, client: Client): (token: Option<string>)
    ensures cfg.isPrivateApp ==> token == cfg.apiSecretKey
    ensures !cfg.isPrivateApp ==> token == client.accessToken
  {
    if cfg.isPrivateApp then cfg.apiSecretKey else client.accessToken
  }

  /** `getAccessTokenHeaderForApiType()`: never yields an empty credential. */
  function AccessTokenHeaderFor(cfg: Config, client: Client): (r: Result<AccessTokenHeader>)
    ensures client.apiType != Admin ==> r == Err(ShopifyError(UnsupportedApiType))
    ensures client.apiType == Admin ==> (r.Ok? <==> Truthy(AdminToken(cfg, client)))
    ensures client.apiType == Admin && r.Err? ==> r.error == ShopifyError(UndeterminedAccessToken)
    ensures r.Ok? ==> r.value.header == AccessTokenHeaderName && Some(r.value.value) == AdminToken(cfg, client)
    ensures r.Ok? ==> |r.value.value| >= 1
  {
    match client.apiType
    case Admin =>
      var value := AdminToken(cfg, client);
      if !Truthy(value) then Err(ShopifyError(UndeterminedAccessToken))
      else Ok(AccessTokenHeader(AccessTokenHeaderName, value.value))
    case _ => Err(ShopifyError(UnsupportedApiType))
  }

  /** The parts of the request parameters the client reads or rewrites. */
  datatype RequestParams = RequestParams(
    path: string,
    query: Option<map<string, QueryValue>>,
    extraHeaders: Headers)

  /** What the client hands to the transport. */
  datatype SentRequest = SentRequest(
    path: string,
    query: Option<map<string, QueryValue>>,
    headers: Headers)

  datatype RestResponse = RestResponse(sent: SentRequest, pageInfo: Option<PageInfo>)

  /** `params.query.limit.toString()`; reading `toString` of an undefined
      `limit` is a `TypeError`. */
  function Limit(query: map<string, QueryValue>): (r: Result<string>)
    ensures r.Ok? <==> "limit" in query
    ensures r.Ok? ==> r.value == QueryValueToString(query["limit"])
    ensures r.Err? ==> r.error == TypeError(UndefinedLimit)
  {
    if "limit" in query then Ok(QueryValueToString(query["limit"])) else Err(TypeError(UndefinedLimit))
  }

  /** `request(params)` around a transport whose response answered the
      `link` header lookup with `link`. */
  function Request(cfg: Config, client: Client, params: RequestParams, link: LinkLookup): (r: Result<RestResponse>)
    ensures client.apiType != Admin ==> r == Err(ShopifyError(UnsupportedApiType))
    ensures client.apiType == Admin && !Truthy(AdminToken(cfg, client)) ==> r == Err(ShopifyError(UndeterminedAccessToken))
    ensures r.Ok? ==> r.value.sent.path == "/admin/api/" + cfg.apiVersion + "/" + params.path + ".json"
    ensures r.Ok? ==> r.value.sent.query == params.query
    ensures r.Ok? ==> r.value.sent.headers.Keys == params.extraHeaders.Keys + {AccessTokenHeaderName}
    ensures r.Ok? ==> forall k :: k in params.extraHeaders ==> r.value.sent.headers[k] == params.extraHeaders[k]
    ensures r.Ok? && AccessTokenHeaderName !in params.extraHeaders ==>
      && Some(r.value.sent.headers[AccessTokenHeaderName]) == AdminToken(cfg, client)
      && |r.value.sent.headers[AccessTokenHeaderName]| >= 1
    ensures r.Ok? ==> (r.value.pageInfo.Some? <==> params.query.Some? && !link.Undefined?)
    ensures r.Ok? && r.value.pageInfo.Some? ==>
      "limit" in params.query.value && r.value.pageInfo.value.limit == QueryValueToString(params.query.value["limit"])
    ensures r.Ok? && r.value.pageInfo.Some? && !(link.Str? && |link.text| >= 1) ==>
      r.value.pageInfo.value == Initial(r.value.pageInfo.value.limit)
    ensures (client.apiType == Admin && Truthy(AdminToken(cfg, client)) && params.query.Some? && !link.Undefined?
      && "limit" !in params.query.value) ==> r == Err(TypeError(UndefinedLimit))
    ensures r.Ok? && AccessTokenHeaderName !in params.extraHeaders ==>
      Some(r.value.sent.headers[AccessTokenHeaderName]) == (if cfg.isPrivateApp then cfg.apiSecretKey else client.accessToken)
    ensures client.apiType == Admin && Truthy(AdminToken(cfg, client)) && (params.query.None? || link.Undefined?) ==>
      r.Ok? && r.value.pageInfo.None?
    ensures (client.apiType == Admin && Truthy(AdminToken(cfg, client)) && params.query.Some? && !link.Undefined?
      && "limit" in params.query.value
      && PageInfoFor(QueryValueToString(params.query.value["limit"]), link, AdminBasePath).Err?) ==>
      r == Err(TypeError(InvalidUrl))
    ensures r.Ok? && r.value.pageInfo.Some? ==>
      PageInfoFor(r.value.pageInfo.value.limit, link, AdminBasePath) == Ok(r.value.pageInfo.value)
    ensures (client.apiType == Admin && Truthy(AdminToken(cfg, client)) && params.query.Some? && !link.Undefined?
      && "limit" in params.query.value) ==>
      (r.Ok? <==> PageInfoFor(QueryValueToString(params.query.value["limit"]), link, AdminBasePath).Ok?)
  {
    var header :- AccessTokenHeaderFor(cfg, client);
    var headers := MergeHeaders(header, params.extraHeaders);
    match GetRestPath(client.apiType, cfg.apiVersion, params.path)
    case Err(e) => Err(e)
    case Ok(path) =>
      var sent := SentRequest(path, params.query, headers);
      if params.query.Some? && !link.Undefined? then
        var limit :- Limit(params.query.value);
        match BasePath(client.apiType)
        case Err(e) => Err(e)
        case Ok(base) =>
          var info :- PageInfoFor(limit, link, base);
          Ok(RestResponse(sent, Some(info)))
      else
        Ok(RestResponse(sent, None))
  }
}

=== FILE: rest_path.dfy ===
/** Versioned REST paths and their inverse: `getRestPath`,
    `getBasePathForApiType` and `buildRequestParams` of the REST client. */
module RestPath {

  import opened Optional
  import opened Strings
  import opened ShopifyErrors
  import opened HttpTypes
  import opened Url

  /** The REST client serves the Admin API only. */
  function BasePath(apiType: ApiClientType): (r: Result<string>)
    ensures r.Ok? <==> apiType == Admin
    ensures r.Ok? ==> r.value == AdminBasePath
    ensures r.Err? ==> r.error == ShopifyError(UnsupportedApiType)
  {
    match apiType
    case Admin => Ok(AdminBasePath)
    case _ => Err(ShopifyError(UnsupportedApiType))
  }

  /** `${base}/${version}/${path}.json`. */
  function GetRestPath(apiType: ApiClientType, version: string, path: string): (r: Result<string>)
    ensures r.Ok? <==> apiType == Admin
    ensures r.Ok? ==> r.value == "/admin/api/" + version + "/" + path + ".json"
    ensures r.Err? ==> r.error == ShopifyError(UnsupportedApiType)
  {
    var base :- BasePath(apiType);
    Ok(base + "/" + version + "/" + path + ".json")
  }

  /** The characters JavaScript's `.` does not match. */
  predicate IsLineTerminator(c: char) {
    c == '\n' || c == '\r' || c == '\U{2028}' || c == '\U{2029}'
  }

  /** The parts of a path matched by `^{base}/[^/]+/(.*).json$`. The `.` before
      `json` is unescaped in the pattern, so it stands for any one character
      other than a line terminator: `wildcard`. */
  datatype VersionedPath = VersionedPath(version: string, resource: string, wildcard: char)

  predicate Admissible(v: VersionedPath) {
    && |v.version| >= 1 && '/' !in v.version
    && (forall k :: 0 <= k < |v.resource| ==> !IsLineTerminator(v.resource[k]))
    && !IsLineTerminator(v.wildcard)
  }

  function Compose(base: string, v: VersionedPath): string {
    base + "/" + v.version + "/" + v.resource + [v.wildcard] + "json"
  }

  /** Matching `^{base}/[^/]+/(.*).json$` against a whole path name. */
  function MatchVersioned(base: string, pathname: string): (r: Option<VersionedPath>)
    ensures r.Some? ==> Admissible(r.value) && Compose(base, r.value) == pathname
  {
    var prefix := base + "/";
    if |pathname| < |prefix| || pathname[..|prefix|] != prefix then None
    else
      var rest := pathname[|prefix|..];
      var k := FirstIn(rest, {'/'}, 0);
      if k == 0 || k == |rest| then None
      else
        var tail := rest[k + 1..];
        if |tail| < 5 || tail[|tail| - 4..] != "json" then None
        else
          var v := VersionedPath(rest[..k], tail[..|tail| - 5], tail[|tail| - 5]);
          if !Admissible(v) then None
          else
            assert tail == v.resource + [v.wildcard] + "json";
            assert rest == v.version + "/" + tail;
            assert pathname == prefix + rest;
            Some(v)
  }

  /** Every decomposition of a path the pattern admits is the one `MatchVersioned` finds. */
  lemma MatchVersionedComplete(base: string, v: VersionedPath)
    requires Admissible(v)
    ensures MatchVersioned(base, Compose(base, v)) == Some(v)
  {
    var prefix := base + "/";
    var tail := v.resource + [v.wildcard] + "json";
    var rest := v.version + "/" + tail;
    var pathname := Compose(base, v);
    assert pathname == prefix + rest;
    assert pathname[..|prefix|] == prefix;
    assert pathname[|prefix|..] == rest;
    assert rest[|v.version|] == '/';
    assert forall j :: 0 <= j < |v.version| ==> rest[j] == v.version[j];
    assert FirstIn(rest, {'/'}, 0) == |v.version|;
    assert rest[..|v.version|] == v.version;
    assert rest[|v.version| + 1..] == tail;
    assert tail[|tail| - 4..] == "json";
    assert tail[..|tail| - 5] == v.resource;
  }

  /** `url.pathname.replace(new RegExp(pattern), '$1')`: the captured resource
      when the whole path matches, the path unchanged otherwise. */
  function StripRestPath(base: string, pathname: string): (path: string)
    ensures MatchVersioned(base, pathname).None? ==> path == pathname
    ensures MatchVersioned(base, pathname).Some? ==> path == MatchVersioned(base, pathname).value.resource
  {
    match MatchVersioned(base, pathname)
    case None => pathname
    case Some(v) => v.resource
  }

  /** A replayable request: a path relative to the versioned prefix and the
      decoded query of the page URL. */
  datatype PageRequest = PageRequest(path: string, query: seq<Param>)

  /** `buildRequestParams(newPageUrl)` on the already parsed URL. */
  function BuildRequestParams(base: string, u: Url): (r: PageRequest)
    ensures r.query == ParseQuery(QueryOf(u))
    ensures MatchVersioned(base, u.pathname).None? ==> r.path == u.pathname
    ensures MatchVersioned(base, u.pathname).Some? ==> r.path == MatchVersioned(base, u.pathname).value.resource
  {
    PageRequest(StripRestPath(base, u.pathname), ParseQuery(QueryOf(u)))
  }

  /** Stripping undoes building: for a version of one path segment and a
      resource path on one line, the REST path strips back to the resource. */
  lemma StripRestPathRoundTrip(version: string, path: string)
    requires |version| >= 1 && '/' !in version
    requires forall k :: 0 <= k < |path| ==> !IsLineTerminator(path[k])
    ensures GetRestPath(Admin, version, path).Ok?
    ensures StripRestPath(AdminBasePath, GetRestPath(Admin, version, path).value) == path
  {
    var v := VersionedPath(version, path, '.');
    assert Compose(AdminBasePath, v) == GetRestPath(Admin, version, path).value;
    MatchVersionedComplete(AdminBasePath, v);
  }

  /** Building undoes stripping: a page path in the current version whose
      wildcard is a real `.` is rebuilt exactly from its stripped form. */
  lemma RestPathOfStripped(version: string, pathname: string)
    requires MatchVersioned(AdminBasePath, pathname).Some?
    requires MatchVersioned(AdminBasePath, pathname).value.version == version
    requires MatchVersioned(AdminBasePath, pathname).value.wildcard == '.'
    ensures GetRestPath(Admin, version, StripRestPath(AdminBasePath, pathname)) == Ok(pathname)
  {
    var v := MatchVersioned(AdminBasePath, pathname).value;
    assert [v.wildcard] + "json" == ".json";
    assert Compose(AdminBasePath, v) == "/admin/api/" + version + "/" + v.resource + ".json";
  }
}

=== FILE: rest_scenarios.dfy ===
/** One request of the REST client followed end to end: a listing whose
    response links to the next page, outside private-app mode with a
    non-empty token, for every limit and for every non-empty shop host, API
    version and cursor and every resource path free of the characters that
    delimit the parts of a page URL or of a `Link` header (the resource may
    hold `/` but no line terminator, and the host no `:`). */
module RestScenarios {

  import opened Optional
  import opened Strings
  import opened ShopifyErrors
  import opened HttpTypes
  import opened Context
  import opened Url
  import opened LinkHeader
  import opened RestPath
  import opened Pagination
  import opened RestClient

  /** Characters that would change how a page URL is split, matched or parsed. */
  const Delimiters: set<char> := {',', '<', '?', '#', '&', '/'}

  /** The versioned path of a resource, as the platform writes it in page URLs. */
  function PagePath(version: string, resource: string): string {
    "/admin/api/" + version + "/" + resource + ".json"
  }

  /** A query holding only the cursor. */
  function PageSearch(cursor: string): string {
    "?page_info=" + cursor
  }

  /** The next-page URL the platform sends: the versioned path of `resource`
      with only the cursor as query. */
  function PageUrl(host: string, version: string, resource: string, cursor: string): string {
    "https://" + host + PagePath(version, resource) + PageSearch(cursor)
  }

  /** The versioned path of a resource holds none of the URL delimiters. */
  lemma PagePathPlain(version: string, resource: string)
    requires NoneOf(version, {'?', '#', ',', '<'}) && NoneOf(resource, {'?', '#', ',', '<'})
    ensures var path := PagePath(version, resource);
      |path| >= 1 && path[0] == '/' && '?' !in path && '#' !in path && ',' !in path && '<' !in path
  {
    var cs := {'?', '#', ',', '<'};
    assert NoneOf("/admin/api/", cs);
    assert NoneOf("/", cs);
    assert NoneOf(".json", cs);
    NoneOfConcat("/admin/api/", version, cs);
    NoneOfConcat("/admin/api/" + version, "/", cs);
    NoneOfConcat("/admin/api/" + version + "/", resource, cs);
    NoneOfConcat("/admin/api/" + version + "/" + resource, ".json", cs);
    var path := PagePath(version, resource);
    NoneOfNotIn(path, cs, '?');
    NoneOfNotIn(path, cs, '#');
    NoneOfNotIn(path, cs, ',');
    NoneOfNotIn(path, cs, '<');
  }

  /** The cursor query forms a well-formed search part. */
  lemma CursorSearch(path: string, cursor: string)
    requires |path| >= 1 && path[0] == '/' && '?' !in path && '#' !in path
    requires '#' !in cursor
    ensures WellFormed(Url(path, PageSearch(cursor)))
  {
    var search := PageSearch(cursor);
    assert '#' !in "?page_info=";
    assert forall k :: 0 <= k < |search| ==> search[k] == if k < 11 then "?page_info="[k] else cursor[k - 11];
  }

  /** The page URL parses into the versioned path and the cursor query. */
  lemma PageUrlParses(host: string, u: Url)
    requires |host| >= 1 && '/' !in host && '?' !in host && '#' !in host
    requires WellFormed(u)
    ensures ParseUrl("https://" + host + u.pathname + u.search) == Some(u)
  {
    assert "https://" + host + u.pathname + u.search == "https" + "://" + host + u.pathname + u.search;
    ParseUrlRoundTrip("https", host, u);
  }

  /** A query of one pair parses into that pair. */
  lemma SingleParam(name: string, value: string)
    requires '&' !in name && '=' !in name && '&' !in value
    ensures ParseQuery(name + "=" + value) == [Param(name, value)]
  {
    var q := name + "=" + value;
    NotInConcat(name, "=", '&');
    NotInConcat(name + "=", value, '&');
    FirstCharAbsent(q, "&");
    SplitWithoutSeparator(q, "&");
    assert q[|name|] == '=';
    var p := ParamOf(q);
    NameValueUnique(p.name, p.value, name, value);
    assert [q][1..] == [];
    assert ParamsOf([q]) == [p] + ParamsOf([]);
  }

  /** The cursor query holds the one `page_info` pair. */
  lemma CursorParams(path: string, cursor: string)
    requires '&' !in cursor
    ensures ParseQuery(QueryOf(Url(path, PageSearch(cursor)))) == [Param("page_info", cursor)]
  {
    assert QueryOf(Url(path, PageSearch(cursor))) == "page_info" + "=" + cursor;
    assert '&' !in "page_info" && '=' !in "page_info";
    SingleParam("page_info", cursor);
  }

  /** A URL whose query is the one `page_info` pair has a cursor and no `fields`. */
  lemma CursorLookup(u: Url, cursor: string)
    requires ParseQuery(QueryOf(u)) == [Param("page_info", cursor)]
    ensures GetParam(u, "fields") == None
    ensures GetParam(u, "page_info") == Some(cursor)
  {
    assert FirstNamed([Param("page_info", cursor)], "fields") == None;
    assert FirstNamed([Param("page_info", cursor)], "page_info") == Some(0);
  }

  /** A character absent from every part is absent from the page URL. */
  lemma UrlLacks(host: string, path: string, cursor: string, c: char)
    requires c !in host && c !in path && c !in cursor
    requires c !in "https://" && c !in "?page_info="
    ensures c !in "https://" + host + path + PageSearch(cursor)
  {
    NotInConcat("?page_info=", cursor, c);
    NotInConcat("https://", host, c);
    NotInConcat("https://" + host, path, c);
    NotInConcat("https://" + host + path, PageSearch(cursor), c);
  }

  /** A formatted link holds no comma when its URL holds none. */
  lemma FormatLinkPlain(url: string)
    requires ',' !in url
    ensures ',' !in FormatLink(url, "next")
  {
    var header := FormatLink(url, "next");
    var tail := RelInfix + "next" + "\"";
    assert ',' !in tail;
    assert header == "<" + url + tail;
    assert forall k :: 0 <= k < |header| ==>
      header[k] == if k == 0 then '<' else if k <= |url| then url[k - 1] else tail[k - 1 - |url|];
  }

  /** A formatted link is one entry carrying its URL and relation. */
  lemma EntryOfFormatLink(url: string, rel: string, u: Url)
    requires |url| >= 1 && '<' !in url
    requires |rel| >= 1 && '"' !in rel
    requires ParseUrl(url) == Some(u)
    ensures ParseEntry(FormatLink(url, rel)) ==
      Ok(Some(ParsedLink(url, rel, u, GetParam(u, "fields"), GetParam(u, "page_info"))))
  {
    MatchFormatLink(url, rel);
  }

  lemma OneEntry(entry: string, l: ParsedLink)
    requires ParseEntry(entry) == Ok(Some(l))
    ensures ParseEntries([entry]) == Ok([l])
  {
    var entries := [entry];
    assert entries[0] == entry && entries[1..] == [];
    UnfoldOk(Initial(""), entries, "");
    assert ParseEntries(entries[1..]) == Ok([]);
    assert [l] + [] == [l];
  }

  /** A header made of one `next` entry parses into that one link. */
  lemma SingleEntry(url: string, u: Url, cursor: string)
    requires |url| >= 1 && ',' !in url && '<' !in url
    requires ParseUrl(url) == Some(u)
    requires GetParam(u, "fields") == None && GetParam(u, "page_info") == Some(cursor)
    ensures ParseEntries(Split(FormatLink(url, "next"), LinkSeparator)) ==
      Ok([ParsedLink(url, "next", u, None, Some(cursor))])
  {
    var header := FormatLink(url, "next");
    FormatLinkPlain(url);
    assert LinkSeparator[0] == ',';
    FirstCharAbsent(header, LinkSeparator);
    SplitWithoutSeparator(header, LinkSeparator);
    EntryOfFormatLink(url, "next", u);
    OneEntry(header, ParsedLink(url, "next", u, None, Some(cursor)));
  }

  /** A single `next` cursor link without `fields` gives a page information
      holding only that link. */
  lemma ExpectedSingle(limit: string, link: ParsedLink, base: string)
    requires IsCursor(link, "next") && !SuppliesFields(link)
    ensures Expected(limit, [link], base) ==
      PageInfo(limit, None, None, None, Some(link.text), Some(BuildRequestParams(base, link.url)))
  {
    assert LastCursorIndex([link], "next") == Some(0);
    assert LastCursorIndex([link], "previous") == None;
    assert FirstFieldsIndex([link]) == None;
  }

  /** The page URL's path strips back to the resource it was built from. */
  lemma PageReplay(version: string, resource: string, cursor: string)
    requires |version| >= 1 && '/' !in version && '&' !in cursor
    requires forall k :: 0 <= k < |resource| ==> !IsLineTerminator(resource[k])
    ensures BuildRequestParams(AdminBasePath, Url(PagePath(version, resource), PageSearch(cursor))) ==
      PageRequest(resource, [Param("page_info", cursor)])
  {
    StripRestPathRoundTrip(version, resource);
    assert GetRestPath(Admin, version, resource).value == PagePath(version, resource);
    CursorParams(PagePath(version, resource), cursor);
  }

  /** The page URL parses into its path and cursor query. */
  lemma PageLinkParses(host: string, path: string, cursor: string)
    requires |host| >= 1 && '/' !in host && '?' !in host && '#' !in host
    requires |path| >= 1 && path[0] == '/' && '?' !in path && '#' !in path
    requires '#' !in cursor
    ensures ParseUrl("https://" + host + path + PageSearch(cursor)) == Some(Url(path, PageSearch(cursor)))
  {
    CursorSearch(path, cursor);
    PageUrlParses(host, Url(path, PageSearch(cursor)));
  }

  /** The page URL's query carries the cursor and no `fields`. */
  lemma PageLinkFields(path: string, cursor: string)
    requires '&' !in cursor
    ensures GetParam(Url(path, PageSearch(cursor)), "fields") == None
    ensures GetParam(Url(path, PageSearch(cursor)), "page_info") == Some(cursor)
  {
    CursorParams(path, cursor);
    CursorLookup(Url(path, PageSearch(cursor)), cursor);
  }

  /** The page URL holds neither a comma nor an opening angle bracket. */
  lemma PageLinkPlain(host: string, path: string, cursor: string)
    requires ',' !in host && '<' !in host && ',' !in path && '<' !in path && ',' !in cursor && '<' !in cursor
    ensures var url := "https://" + host + path + PageSearch(cursor);
      |url| >= 1 && ',' !in url && '<' !in url
  {
    UrlLacks(host, path, cursor, ',');
    UrlLacks(host, path, cursor, '<');
  }

  /** A header holding one `next` link to a page URL parses into that link. */
  lemma NextLinkEntries(host: string, path: string, cursor: string)
    requires |host| >= 1 && '/' !in host && '?' !in host && '#' !in host && ',' !in host && '<' !in host
    requires |path| >= 1 && path[0] == '/' && '?' !in path && '#' !in path && ',' !in path && '<' !in path
    requires '#' !in cursor && '&' !in cursor && ',' !in cursor && '<' !in cursor
    ensures var url := "https://" + host + path + PageSearch(cursor);
      ParseEntries(Split(FormatLink(url, "next"), LinkSeparator)) ==
        Ok([ParsedLink(url, "next", Url(path, PageSearch(cursor)), None, Some(cursor))])
  {
    PageLinkPlain(host, path, cursor);
    PageLinkFields(path, cursor);
    PageLinkParses(host, path, cursor);
    SingleEntry("https://" + host + path + PageSearch(cursor), Url(path, PageSearch(cursor)), cursor);
  }

  /** The page information of a header holding one `next` link to a page URL
      whose parts are free of the delimiters. */
  lemma NextLinkInfo(lim: string, host: string, version: string, resource: string, cursor: string)
    requires |host| >= 1 && '/' !in host && '?' !in host && '#' !in host && ',' !in host && '<' !in host
    requires |version| >= 1 && '/' !in version
    requires forall k :: 0 <= k < |resource| ==> !IsLineTerminator(resource[k])
    requires var path := PagePath(version, resource);
      |path| >= 1 && path[0] == '/' && '?' !in path && '#' !in path && ',' !in path && '<' !in path
    requires |cursor| >= 1 && '#' !in cursor && '&' !in cursor && ',' !in cursor && '<' !in cursor
    ensures var url := PageUrl(host, version, resource, cursor);
      PageInfoFor(lim, Str(FormatLink(url, "next")), AdminBasePath) ==
        Ok(PageInfo(lim, None, None, None, Some(url), Some(PageRequest(resource, [Param("page_info", cursor)]))))
  {
    var path := PagePath(version, resource);
    var u := Url(path, PageSearch(cursor));
    var url := PageUrl(host, version, resource, cursor);
    var link := ParsedLink(url, "next", u, None, Some(cursor));
    assert PageInfoFor(lim, Str(FormatLink(url, "next")), AdminBasePath) == Ok(Expected(lim, [link], AdminBasePath)) by {
      NextLinkEntries(host, path, cursor);
      PageInfoMatchesReference(lim, FormatLink(url, "next"), AdminBasePath);
    }
    ExpectedSingle(lim, link, AdminBasePath);
    PageReplay(version, resource, cursor);
  }

  /** The request of the listing, once the page information of its link is
      known. */
  lemma ListingRequest(cfg: Config, token: string, resource: string, limit: QueryValue, link: string, info: PageInfo)
    requires !cfg.isPrivateApp && |token| >= 1
    requires PageInfoFor(QueryValueToString(limit), Str(link), AdminBasePath) == Ok(info)
    ensures var params := RequestParams(resource, Some(map["limit" := limit]), map[]);
      var r := Request(cfg, Client(Admin, Some(token)), params, Str(link));
      && r.Ok?
      && r.value.pageInfo == Some(info)
      && GetRestPath(Admin, cfg.apiVersion, resource) == Ok(r.value.sent.path)
  {
    assert Limit(map["limit" := limit]) == Ok(QueryValueToString(limit));
  }

  /** A `Link` header with a single `next` entry leads to page information
      holding the limit, the URL text unchanged, and a next-page request that
      replays `resource` with the cursor; rebuilding that request's path gives
      back the page URL's path. */
  lemma NextLinkReplays(
    cfg: Config, token: string, resource: string, limit: QueryValue,
    host: string, cursor: string)
    requires !cfg.isPrivateApp && |token| >= 1
    requires |cfg.apiVersion| >= 1 && NoneOf(cfg.apiVersion, Delimiters)
    requires NoneOf(resource, Delimiters - {'/'} + {'\n', '\r', '\U{2028}', '\U{2029}'})
    requires |host| >= 1 && NoneOf(host, Delimiters + {':'})
    requires |cursor| >= 1 && NoneOf(cursor, Delimiters)
    ensures var url := PageUrl(host, cfg.apiVersion, resource, cursor);
      var params := RequestParams(resource, Some(map["limit" := limit]), map[]);
      var r := Request(cfg, Client(Admin, Some(token)), params, Str(FormatLink(url, "next")));
      && r.Ok?
      && r.value.pageInfo == Some(PageInfo(QueryValueToString(limit), None, None, None, Some(url),
           Some(PageRequest(resource, [Param("page_info", cursor)]))))
      && GetRestPath(Admin, cfg.apiVersion, resource) == Ok(r.value.sent.path)
  {
    var version := cfg.apiVersion;
    var cs := {'?', '#', ',', '<'};
    assert NoneOf(version, cs) && NoneOf(resource, cs);
    PagePathPlain(version, resource);
    NoneOfNotIn(cursor, Delimiters, '#');
    NoneOfNotIn(cursor, Delimiters, '&');
    NoneOfNotIn(cursor, Delimiters, ',');
    NoneOfNotIn(cursor, Delimiters, '<');
    NoneOfNotIn(host, Delimiters + {':'}, '/');
    NoneOfNotIn(host, Delimiters + {':'}, '?');
    NoneOfNotIn(host, Delimiters + {':'}, '#');
    NoneOfNotIn(host, Delimiters + {':'}, ',');
    NoneOfNotIn(host, Delimiters + {':'}, '<');
    NoneOfNotIn(version, Delimiters, '/');
    assert forall k :: 0 <= k < |resource| ==> !IsLineTerminator(resource[k]);

    var url := PageUrl(host, version, resource, cursor);
    var lim := QueryValueToString(limit);
    NextLinkInfo(lim, host, version, resource, cursor);
    ListingRequest(cfg, token, resource, limit, FormatLink(url, "next"),
      PageInfo(lim, None, None, None, Some(url), Some(PageRequest(resource, [Param("page_info", cursor)]))));
  }
}

=== FILE: strings.dfy ===
/** The few operations of JavaScript's `String` that the clients use:
    searching, `split` with a string separator, and its inverse `join`. */
module Strings {

  import opened Optional

  /** `pat` occurs in `s` starting at index `i`. */
  predicate Occurs(s: string, pat: string, i: int) {
    0 <= i && i + |pat| <= |s| && s[i..i + |pat|] == pat
  }

  predicate Contains(s: string, pat: string) {
    exists i | 0 <= i <= |s| :: Occurs(s, pat, i)
  }

  /** The first occurrence of `pat` at or after `from` (`s.indexOf(pat, from)`). */
  function IndexOfFrom(s: string, pat: string, from: nat): (r: Option<nat>)
    ensures r.Some? ==> from <= r.value && Occurs(s, pat, r.value)
    ensures r.Some? ==> forall j :: from <= j < r.value ==> !Occurs(s, pat, j)
    ensures r.None? ==> forall j :: from <= j ==> !Occurs(s, pat, j)
    decreases |s| - from
  {
    if from + |pat| > |s| then None
    else if s[from..from + |pat|] == pat then Some(from)
    else IndexOfFrom(s, pat, from + 1)
  }

  function IndexOf(s: string, pat: string): (r: Option<nat>)
    ensures r.Some? ==> Occurs(s, pat, r.value)
    ensures r.Some? ==> forall j :: 0 <= j < r.value ==> !Occurs(s, pat, j)
    ensures r.None? ==> !Contains(s, pat)
  {
    IndexOfFrom(s, pat, 0)
  }

  /** The first index at or after `from` whose character is in `cs`, or `|s|` when there is none. */
  function FirstIn(s: string, cs: set<char>, from: nat): (r: nat)
    requires from <= |s|
    ensures from <= r <= |s|
    ensures r < |s| ==> s[r] in cs
    ensures forall k :: from <= k < r ==> s[k] !in cs
    decreases |s| - from
  {
    if from == |s| || s[from] in cs then from else FirstIn(s, cs, from + 1)
  }

  /** A one-character pattern occurs exactly where that character stands. */
  lemma OccursChar(s: string, c: char, i: int)
    ensures Occurs(s, [c], i) <==> 0 <= i < |s| && s[i] == c
  {
    if 0 <= i < |s| {
      assert s[i..i + 1] == [s[i]];
    }
  }

  lemma ContainsChar(s: string, c: char)
    ensures Contains(s, [c]) <==> c in s
  {
    if c in s {
      var i :| 0 <= i < |s| && s[i] == c;
      OccursChar(s, c, i);
    }
    if Contains(s, [c]) {
      var i :| Occurs(s, [c], i);
      OccursChar(s, c, i);
    }
  }

  /** No piece before the first occurrence of `sep` contains `sep`. */
  lemma PrefixBeforeFirstIsFree(s: string, sep: string, i: nat)
    requires |sep| > 0 && i <= |s|
    requires forall j :: 0 <= j < i ==> !Occurs(s, sep, j)
    ensures !Contains(s[..i], sep)
  {
    if Contains(s[..i], sep) {
      var j :| 0 <= j <= i && Occurs(s[..i], sep, j);
      assert j + |sep| <= i;
      assert s[..i][j..j + |sep|] == s[j..j + |sep|];
      assert Occurs(s, sep, j);
    }
  }

  /** `s.split(sep)` for a non-empty separator: the pieces between successive
      leftmost non-overlapping occurrences of `sep`; `"".split(sep)` is `[""]`. */
  function Split(s: string, sep: string): (parts: seq<string>)
    requires |sep| > 0
    ensures |parts| >= 1
    ensures forall k :: 0 <= k < |parts| ==> !Contains(parts[k], sep)
    decreases |s|
  {
    match IndexOf(s, sep)
    case None => [s]
    case Some(i) =>
      PrefixBeforeFirstIsFree(s, sep, i);
      [s[..i]] + Split(s[i + |sep|..], sep)
  }

  /** `parts.join(sep)`. */
  function Join(parts: seq<string>, sep: string): string {
    if |parts| == 0 then ""
    else if |parts| == 1 then parts[0]
    else parts[0] + sep + Join(parts[1..], sep)
  }

  /** Joining the pieces of a split gives back the original text. */
  lemma {:induction false} JoinSplit(s: string, sep: string)
    requires |sep| > 0
    ensures Join(Split(s, sep), sep) == s
    decreases |s|
  {
    match IndexOf(s, sep)
    case None =>
    case Some(i) =>
      var tail := s[i + |sep|..];
      var rest := Split(tail, sep);
      assert Split(s, sep) == [s[..i]] + rest;
      assert ([s[..i]] + rest)[1..] == rest;
      JoinSplit(tail, sep);
      assert s[i..i + |sep|] == sep;
      assert s == s[..i] + s[i..i + |sep|] + tail;
  }

  /** The first occurrence of `c` in `p + [c] + t` is right after `p` when `p` lacks `c`. */
  lemma IndexOfAfterFree(p: string, c: char, t: string)
    requires c !in p
    ensures IndexOf(p + [c] + t, [c]) == Some(|p|)
  {
    var s := p + [c] + t;
    OccursChar(s, c, |p|);
    forall j | 0 <= j < |p|
      ensures !Occurs(s, [c], j)
    {
      OccursChar(s, c, j);
      assert s[j] == p[j];
    }
  }

  /** Splitting on a single character undoes joining pieces that do not contain it. */
  lemma {:induction false} SplitJoin(parts: seq<string>, c: char)
    requires |parts| >= 1
    requires forall k :: 0 <= k < |parts| ==> c !in parts[k]
    ensures Split(Join(parts, [c]), [c]) == parts
    decreases |parts|
  {
    if |parts| == 1 {
      ContainsChar(parts[0], c);
      assert IndexOf(parts[0], [c]).None?;
    } else {
      var p := parts[0];
      var t := Join(parts[1..], [c]);
      var s := p + [c] + t;
      assert Join(parts, [c]) == s;
      IndexOfAfterFree(p, c, t);
      assert s[..|p|] == p;
      assert s[|p| + 1..] == t;
      SplitJoin(parts[1..], c);
      assert Split(s, [c]) == [p] + parts[1..];
    }
  }

  /** A text without the separator's first character does not contain the separator. */
  lemma FirstCharAbsent(s: string, sep: string)
    requires |sep| > 0 && sep[0] !in s
    ensures !Contains(s, sep)
  {
    forall i | 0 <= i && i + |sep| <= |s|
      ensures !Occurs(s, sep, i)
    {
      assert s[i..i + |sep|][0] == s[i];
    }
  }

  /** A text that does not contain the separator splits into itself alone. */
  lemma SplitWithoutSeparator(s: string, sep: string)
    requires |sep| > 0 && !Contains(s, sep)
    ensures Split(s, sep) == [s]
  {
  }

  /** None of the characters of `cs` occurs in `s`. */
  predicate NoneOf(s: string, cs: set<char>) {
    forall k :: 0 <= k < |s| ==> s[k] !in cs
  }

  lemma NoneOfConcat(a: string, b: string, cs: set<char>)
    requires NoneOf(a, cs) && NoneOf(b, cs)
    ensures NoneOf(a + b, cs)
  {
    assert forall k :: |a| <= k < |a| + |b| ==> (a + b)[k] == b[k - |a|];
  }

  lemma NoneOfNotIn(s: string, cs: set<char>, c: char)
    requires NoneOf(s, cs) && c in cs
    ensures c !in s
  {
  }

  lemma NotInConcat(a: string, b: string, c: char)
    requires c !in a && c !in b
    ensures c !in a + b
  {
    assert forall k :: 0 <= k < |a + b| ==> (a + b)[k] == if k < |a| then a[k] else b[k - |a|];
  }
}

=== FILE: url.dfy ===
/** The part of WHATWG URL parsing the REST client relies on: splitting an
    absolute URL into its path and query, and reading query parameters the way
    `URLSearchParams` does. Percent-decoding, `+` as space, dot-segment
    removal and host validation are not modelled. */
module Url {

  import opened Optional
  import opened Strings

  /** The two components of a parsed URL that the clients read. */
  datatype Url = Url(pathname: string, search: string)

  /** One `name=value` pair of a query string. */
  datatype Param = Param(name: string, value: string)

  /** What `new URL(...)` guarantees of the components it exposes. */
  predicate WellFormed(u: Url) {
    && |u.pathname| >= 1 && u.pathname[0] == '/'
    && '?' !in u.pathname && '#' !in u.pathname
    && '#' !in u.search
    && (u.search == "" || (|u.search| >= 2 && u.search[0] == '?'))
  }

  /** `new URL(text)` for an absolute URL `scheme://host/path?query#fragment`;
      `None` where the constructor throws. */
  function ParseUrl(text: string): (r: Option<Url>)
    ensures r.Some? ==> WellFormed(r.value)
    ensures r.Some? ==> Contains(text, "://")
  {
    match IndexOf(text, "://")
    case None => None
    case Some(i) =>
      var rest := text[i + 3..];
      var hostEnd := FirstIn(rest, {'/', '?', '#'}, 0);
      if i == 0 || hostEnd == 0 then None else Some(Components(rest[hostEnd..]))
  }

  /** The path and query of what follows the host; the fragment is dropped,
      an empty path reads as `/` and an empty query as no query. */
  function Components(afterHost: string): (u: Url)
    requires afterHost == "" || afterHost[0] in {'/', '?', '#'}
    ensures WellFormed(u)
  {
    var body := afterHost[..FirstIn(afterHost, {'#'}, 0)];
    var q := FirstIn(body, {'?'}, 0);
    var pathPart := body[..q];
    var query := if q < |body| then body[q + 1..] else "";
    assert forall k :: 0 <= k < |query| ==> query[k] == body[q + 1 + k];
    assert pathPart != "" ==> pathPart[0] == afterHost[0];
    Url(if pathPart == "" then "/" else pathPart, if query == "" then "" else "?" + query)
  }

  /** An absolute URL made of a scheme, a host and the components of `u` parses back to `u`. */
  lemma ParseUrlRoundTrip(scheme: string, host: string, u: Url)
    requires |scheme| >= 1 && ':' !in scheme
    requires |host| >= 1 && '/' !in host && '?' !in host && '#' !in host
    requires WellFormed(u)
    ensures ParseUrl(scheme + "://" + host + u.pathname + u.search) == Some(u)
  {
    var afterHost := u.pathname + u.search;
    var rest := host + afterHost;
    var text := scheme + "://" + rest;
    assert text == scheme + "://" + host + u.pathname + u.search;
    SchemeSeparatorFirst(scheme, rest);
    assert text[|scheme| + 3..] == rest;
    FirstInAt(rest, {'/', '?', '#'}, |host|);
    assert rest[|host|..] == afterHost;
    ComponentsRoundTrip(u);
    assert ParseUrl(text) == Some(Components(afterHost));
  }

  lemma ComponentsRoundTrip(u: Url)
    requires WellFormed(u)
    ensures Components(u.pathname + u.search) == u
  {
    var afterHost := u.pathname + u.search;
    FirstInAt(afterHost, {'#'}, |afterHost|);
    assert afterHost[..|afterHost|] == afterHost;
    QueryStartsAtPathEnd(u);
  }

  /** The scheme separator is found right after a scheme that has no `:`. */
  lemma SchemeSeparatorFirst(scheme: string, rest: string)
    requires ':' !in scheme
    ensures IndexOf(scheme + "://" + rest, "://") == Some(|scheme|)
  {
    var text := scheme + "://" + rest;
    forall j | 0 <= j < |scheme|
      ensures !Occurs(text, "://", j)
    {
      assert text[j] == scheme[j];
    }
    assert text[|scheme|..|scheme| + 3] == "://";
    assert Occurs(text, "://", |scheme|);
  }

  lemma FirstInAt(s: string, cs: set<char>, i: nat)
    requires i <= |s|
    requires forall k :: 0 <= k < i ==> s[k] !in cs
    requires i == |s| || s[i] in cs
    ensures FirstIn(s, cs, 0) == i
  {
  }

  /** The path and query of a well-formed URL are recovered from their concatenation. */
  lemma QueryStartsAtPathEnd(u: Url)
    requires WellFormed(u)
    ensures var body := u.pathname + u.search;
      var q := FirstIn(body, {'?'}, 0);
      && body[..q] == u.pathname
      && (if q < |body| then body[q + 1..] else "") == QueryOf(u)
  {
    var body := u.pathname + u.search;
    FirstInAt(body, {'?'}, |u.pathname|);
    assert body[..|u.pathname|] == u.pathname;
    if u.search != "" {
      assert body[|u.pathname| + 1..] == u.search[1..];
    }
  }

  /** The query string without its leading `?` (`url.search.replace(/^\?(.*)/, '$1')`). */
  function QueryOf(u: Url): (q: string)
    ensures u.search == "" ==> q == ""
    ensures |u.search| >= 1 && u.search[0] == '?' ==> "?" + q == u.search
  {
    if |u.search| >= 1 && u.search[0] == '?' then u.search[1..] else u.search
  }

  /** One `&`-separated piece: the name runs to the first `=`, and the value is
      the rest (empty when there is no `=`). */
  function ParamOf(piece: string): (p: Param)
    ensures '=' !in p.name
    ensures '=' in piece ==> piece == p.name + "=" + p.value
    ensures '=' !in piece ==> p == Param(piece, "")
  {
    ContainsChar(piece, '=');
    match IndexOf(piece, "=")
    case None => Param(piece, "")
    case Some(i) =>
      OccursChar(piece, '=', i);
      PrefixBeforeFirstIsFree(piece, "=", i);
      ContainsChar(piece[..i], '=');
      assert piece == piece[..i] + "=" + piece[i + 1..];
      Param(piece[..i], piece[i + 1..])
  }

  /** The pairs of the non-empty pieces, in order. */
  function ParamsOf(pieces: seq<string>): (ps: seq<Param>)
    ensures |ps| <= |pieces|
  {
    if |pieces| == 0 then []
    else (if pieces[0] == "" then [] else [ParamOf(pieces[0])]) + ParamsOf(pieces[1..])
  }

  /** The name/value pairs of a query string, in order of appearance. */
  function ParseQuery(query: string): seq<Param> {
    ParamsOf(Split(query, "&"))
  }

  /** A query string made of `pairs`, the inverse of `ParseQuery`. */
  function SerializeQuery(pairs: seq<Param>): string {
    Join(Encoded(pairs), "&")
  }

  function Encoded(pairs: seq<Param>): (pieces: seq<string>)
    ensures |pieces| == |pairs|
  {
    seq(|pairs|, k requires 0 <= k < |pairs| => pairs[k].name + "=" + pairs[k].value)
  }

  /** Pairs whose names hold neither `&` nor `=`, and whose values hold no `&`,
      survive serialisation and parsing unchanged. */
  lemma ParseSerializeQuery(pairs: seq<Param>)
    requires forall k :: 0 <= k < |pairs| ==> '&' !in pairs[k].name && '=' !in pairs[k].name && '&' !in pairs[k].value
    ensures ParseQuery(SerializeQuery(pairs)) == pairs
  {
    var pieces := Encoded(pairs);
    if |pairs| == 0 {
      assert Split("", "&") == [""];
    } else {
      SplitJoin(pieces, '&');
      EncodedParams(pairs);
    }
  }

  lemma {:induction false} EncodedParams(pairs: seq<Param>)
    requires forall k :: 0 <= k < |pairs| ==> '=' !in pairs[k].name
    ensures ParamsOf(Encoded(pairs)) == pairs
    decreases |pairs|
  {
    if |pairs| > 0 {
      var pieces := Encoded(pairs);
      var p := pairs[0];
      assert pieces[0] == p.name + "=" + p.value;
      assert pieces[0][|p.name|] == '=';
      var q := ParamOf(pieces[0]);
      assert q.name + "=" + q.value == p.name + "=" + p.value;
      NameValueUnique(q.name, q.value, p.name, p.value);
      assert pieces[1..] == Encoded(pairs[1..]);
      EncodedParams(pairs[1..]);
    }
  }

  /** `a + "=" + b` determines `a` and `b` when `a` has no `=`. */
  lemma NameValueUnique(a: string, b: string, c: string, d: string)
    requires '=' !in a && '=' !in c
    requires a + "=" + b == c + "=" + d
    ensures a == c && b == d
  {
    IndexOfAfterFree(a, '=', b);
    IndexOfAfterFree(c, '=', d);
    var s := a + "=" + b;
    assert a == s[..|a|] && c == s[..|c|];
    assert b == s[|a| + 1..] && d == s[|c| + 1..];
  }

  /** The index of the first pair named `name`. */
  function FirstNamed(ps: seq<Param>, name: string): (r: Option<nat>)
    ensures r.Some? ==> r.value < |ps| && ps[r.value].name == name
    ensures r.Some? ==> forall j :: 0 <= j < r.value ==> ps[j].name != name
    ensures r.None? ==> forall j :: 0 <= j < |ps| ==> ps[j].name != name
  {
    if |ps| == 0 then None
    else if ps[0].name == name then Some(0)
    else match FirstNamed(ps[1..], name)
      case None => None
      case Some(i) => Some(i + 1)
  }

  /** `url.searchParams.get(name)`: the value of the first pair with that name. */
  function GetParam(u: Url, name: string): (r: Option<string>)
    ensures var ps := ParseQuery(QueryOf(u));
      r.Some? <==> exists j :: 0 <= j < |ps| && ps[j].name == name
    ensures var ps := ParseQuery(QueryOf(u));
      r.Some? ==> exists j :: 0 <= j < |ps| && ps[j] == Param(name, r.value) && forall i :: 0 <= i < j ==> ps[i].name != name
  {
    var ps := ParseQuery(QueryOf(u));
    match FirstNamed(ps, name)
    case None => None
    case Some(i) => Some(ps[i].value)
  }
}
